=== FILE: README.md ===
# market_system core, modelled in Dafny

This project models the logic of the market_system retail backend that is
more than passing values between HTTP and SQL:

- the document sequence numbers (`"S-0000043"`, `"C-0000007"`), in
  `increment_id.dfy`, with Go's `strconv.Itoa`/`Atoi` in `strconv.dfy`;
- the sale side of the stock ledger, `saleProductRepo.Create`, in
  `sale_product.dfy`;
- the receipt side of the stock ledger, `CreatePickingList`, in
  `picking_list.dfy`;
- the business endpoints `MakePay`, `Registration` and `BranchDoc`, in
  `business_logic.dfy`;
- the request helpers `getIntegerOrDefaultValue` and `handleResponse`, in
  `handler.dfy`.

The rest is supporting material. The rows are the datatypes in `models.dfy`.
The database is the class `Storage.Store` in `store.dfy`: one sequence field
per table, in the order the store lists it. `Option` and `Result` live in
`wrappers.dfy`.

The code that changes state step by step is modelled as methods:
- `SaleProductRepo.Create`;
- `PickingListHandler.CreatePickingList`;
- `BusinessLogic.MakePay`;
- the loops of `Registration` and `BranchDoc`.

Each of those methods is proved against a pure function: `CreateOutcome`,
`Receive`, `Pay`, `Window`, and `BranchTotal`/`LastBranchSale`/`QuantityOf`.
The properties are then lemmas about those functions. The pure helpers
(`IncrementId`, `GetLast`, `getIntegerOrDefaultValue`, `handleResponse`) are
functions.

Behaviour of the code that a reader might not expect, and that the model
keeps:

- **Sequence numbers.** `IncrementId` (pkg/helpers/incrementID.go:21-27)
  cuts the seven-character template at a start position. That start
  exceeds seven, and the slice panics, for n ≥ 9999999. It does so for
  n = -100000 and for n ≤ -1000000 as well. The model does not roll over.
  `GetLast` reports `IndexOutOfRange` there.
- **Unknown sale.** The unknown-sale check in `saleProductRepo.Create`
  (storage/postgres/sale_product.go:51-54) compares the pgx error with
  `sql.ErrNoRows`. pgx v4 reports a missing row with its own `pgx.ErrNoRows`,
  a different value, so the check never fires. As a result:
  - An unknown sale id reads as a null branch. The stock check then looks
    for the product under the branch `""` (`branchId.String`).
  - The deduction binds the null value itself, so `branch_id = NULL` matches
    no row.
  - Against an unknown sale no sale row and no ledger row ever changes.
    When a (product, `""`) row with enough stock exists and the product has
    a price, the line item is stored anyway, so the same unit can be sold
    again (`UnknownSale`, `UnknownSaleOversells`).
- **Order of writes.** The writes happen in the order line item, sale
  total, stock. They are not wrapped in a transaction, and a failure leaves
  the earlier writes in place. The stock deduction runs only under the
  guard `remaining > 0 || remaining > quantity`.
- **Receipts.** A receipt creates a ledger row only when the whole ledger
  is empty. Otherwise it updates the first row for (branch, product). When
  no such row exists, it updates the empty id, which changes nothing. The
  update does not write the name column.
- **List order.** "Last" in `MakePay`, `BranchDoc` and the coming lookup
  means last in the order the store lists rows. For sales that order is
  newest first.

## Model

| member | source | states |
|---|---|---|
| Strconv.Atoi | pkg/helpers/incrementID.go:44 | a parsed value comes from an optional sign followed by digits only, ends in a digit (so a bare sign is refused), lies in the int64 range, and has the sign of its text |
| Strconv.Itoa | pkg/helpers/incrementID.go:23-24 | a minus sign for negative numbers, then the shortest digits; AtoiItoa and NatToDigitsValue state its value |
| Strconv.AtoiItoa | pkg/helpers/incrementID.go:23-24 | parsing the decimal rendering of any int64 gives it back |
| Strconv.AtoiZeroPadded | pkg/helpers/incrementID.go:44 | leading zeros do not change the parsed value |
| Strconv.AtoiSigned | api/handler/handler.go:43 | a '+' or '-' before a zero-padded or plain rendering is accepted, with the value kept or negated, within the int64 range |
| Strconv.NatToDigitsValue | pkg/helpers/incrementID.go:24 | the rendering of n has decimal value n |
| Strconv.NatToDigitsLength | pkg/helpers/incrementID.go:23 | n renders in at most k digits exactly when n < 10^k |
| Strconv.ZerosPrefixValue | pkg/helpers/incrementID.go:24 | a run of zeros in front of digits keeps their value |
| IncrementIds.IncrementId | pkg/helpers/incrementID.go:21-27 | the template cut after the digit count of n (one further when n+1 has more digits) followed by n+1; defined exactly where the Go slice exists, and its value is stated by IncrementIdValue |
| IncrementIds.TemplateSuffix | pkg/helpers/incrementID.go:22-26 | every suffix of the template is a run of zeros |
| IncrementIds.IncrementIdDomain | pkg/helpers/incrementID.go:22-26 | the template slice exists exactly for 0 ≤ n ≤ 9999998 |
| IncrementIds.GrowsByOne | pkg/helpers/incrementID.go:23-26 | n+1 has as many digits as n or one more, so the two branches cover every case |
| IncrementIds.IncrementIdValue | pkg/helpers/incrementID.go:21-27 | for n ≤ 9999998 the result has 7 characters, all digits, with decimal value n+1: zeros then the rendering of n+1 |
| IncrementIds.IncrementIdExamples | pkg/helpers/incrementID.go:21-27 | 0 → "0000001", 9 → "0000010", 42 → "0000043" |
| IncrementIds.IncrementIdLimits | pkg/helpers/incrementID.go:21-27 | 999999 → "1000000", 9999998 → "9999999", and 9999999 is out of range |
| IncrementIds.IncrementIdOutOfRange | pkg/helpers/incrementID.go:21-27 | the slice start exceeds the template for 10000000, -100000 and -1000000, while -100001 still gives "-100000" |
| IncrementIds.GetLast | pkg/helpers/incrementID.go:29-51 | an empty max gives the seed even when the query failed; otherwise a query error is reported, a suffix Atoi refuses is an error, and a non-negative suffix gives the next 7-digit number exactly when it is at most 9999998 |
| IncrementIds.SeedFollowsZero | pkg/helpers/incrementID.go:36-39 | the seed for an empty table equals IncrementId(0) |
| IncrementIds.GetLastRoundTrip | pkg/helpers/incrementID.go:44-50 | feeding back prefix + IncrementId(n) yields IncrementId(n+1) |
| IncrementIds.NextSaleNumber | pkg/helpers/incrementID.go:44-50 | after "S-0000042" the next number is "0000043" |
| IncrementIds.NextComingNumber | pkg/helpers/incrementID.go:44-50 | after "C-0000009" the next number is "0000010" |
| Handler.GetIntegerOrDefaultValue | api/handler/handler.go:37-45 | empty input gives the default; otherwise the result is Ok exactly when Atoi accepts the text, with Atoi's value, and a non-digit after the first character is an error |
| Handler.GetIntegerRoundTrip | api/handler/handler.go:43-44 | the rendering of any int64 reads back as that number, also zero-padded and with an explicit '+' or '-' sign |
| Handler.GetIntegerExamples | api/handler/handler.go:37-45 | "" gives the default, "25" and "-3" parse, "ten", "+" and "-" are errors |
| Handler.GetIntegerSignedExamples | api/handler/handler.go:43-44 | "+7" and "+007" read as 7, "-05" as -5 |
| Handler.HandleResponse | api/handler/handler.go:47-70 | the envelope keeps the status; "success" exactly below 400 and "error" from 400; data passes unchanged exactly when the status is not 500, and 500 carries "Internal Server Error" |
| Storage.ProductWithId | storage/postgres/sale_product.go:67-70 | a found product has the id; none found means no product has it |
| Storage.FirstRow | storage/postgres/sale_product.go:57-60 | the first ledger row for (product, branch), or proof that there is none |
| SaleProductRepo.SaleBranch | storage/postgres/sale_product.go:51-54 | null exactly when no sale has the id; otherwise the branch of a sale with that id |
| SaleProductRepo.AddToSaleTotal | storage/postgres/sale_product.go:42-45 | the total update; SaleTotalFrame and SaleTotalRaised state what it changes |
| SaleProductRepo.SaleTotalFrame | storage/postgres/sale_product.go:42-45 | same length; ids, branches and payments are kept and rows of other sales are unchanged |
| SaleProductRepo.DeductStock | storage/postgres/sale_product.go:94 | the stock update; DeductStockFrame and StockDeducted state what it changes |
| SaleProductRepo.DeductStockFrame | storage/postgres/sale_product.go:94 | same length; ids, products and branches are kept, and a null branch changes no row |
| SaleProductRepo.DeductionRuns | storage/postgres/sale_product.go:93 | the deduction guard remaining > 0 or remaining > quantity |
| SaleProductRepo.LineItem | storage/postgres/sale_product.go:73-82 | the inserted row: request fields, unit price and quantity × price (LineItemSnapshot states it of Create) |
| SaleProductRepo.CreateOutcome | storage/postgres/sale_product.go:25-100 | the tables and result of one call, step by step as the code runs; its properties are the lemmas below |
| SaleProductRepo.CreateOutcomeFrame | storage/postgres/sale_product.go:25-100 | every error leaves the ledger alone; a check failure or a failed insert leaves every table alone; success appends exactly the returned item; no row is added to sales or ledger |
| SaleProductRepo.Create | storage/postgres/sale_product.go:25-100 | the three tables and the result after the call are those of CreateOutcome; products, comings and picking lists are unchanged |
| SaleProductRepo.InsufficientStockRejected | storage/postgres/sale_product.go:57-65 | remaining < quantity gives "not enough quantity" with no table changed |
| SaleProductRepo.MissingStockRowRejected | storage/postgres/sale_product.go:57-60 | no ledger row for the pair gives an error with no table changed |
| SaleProductRepo.UnknownSale | storage/postgres/sale_product.go:51-98 | an unknown sale is checked against the "" branch and fails before any write when that row is missing; sales and stock never change, and with enough stock and a price the line item alone is stored |
| SaleProductRepo.UnknownSaleOversells | storage/postgres/sale_product.go:51-98 | one unit stocked under "" is sold twice against an unknown sale, and the ledger is left unchanged |
| SaleProductRepo.ExactQuantityLeavesZero | storage/postgres/sale_product.go:63-98 | asking for exactly the remaining stock of an existing sale's branch succeeds and leaves the row at 0 |
| SaleProductRepo.LineItemSnapshot | storage/postgres/sale_product.go:67-82 | the stored item carries the request's fields, the product's current price and total = quantity × price, appended to the line items |
| SaleProductRepo.SaleTotalRaised | storage/postgres/sale_product.go:89-92 | on success each sale with the id gains exactly the line total; every other sale is unchanged |
| SaleProductRepo.StockDeducted | storage/postgres/sale_product.go:93-98 | on success exactly the rows for (product, existing sale's branch) lose the quantity when the guard holds; every other row is unchanged |
| SaleProductRepo.NegativeQuantityRaisesStock | storage/postgres/sale_product.go:63-98 | a negative quantity passes the check and raises every row for the pair |
| SaleProductRepo.NoRollback | storage/postgres/sale_product.go:73-97 | a failed total write leaves the line item stored; a failed stock write leaves item and raised total, ledger untouched |
| SaleProductRepo.LineTotalAppend | storage/postgres/sale_product.go:73-82 | appending an item adds its total to its own sale's line sum only |
| SaleProductRepo.TotalsStayConsistent | storage/postgres/sale_product.go:73-92 | a successful call keeps every sale total equal to the sum of its line items |
| SaleProductRepo.TotalWriteFails | storage/postgres/sale_product.go:83-92 | a failed total write leaves exactly the stored line item behind |
| SaleProductRepo.UntotalledItemBreaksConsistency | storage/postgres/sale_product.go:73-92 | storing an item of non-zero total without raising its sale's total breaks total = sum of items |
| SaleProductRepo.FailedTotalBreaksConsistency | storage/postgres/sale_product.go:83-92 | a failed total write after a non-zero item breaks that equality |
| SaleProductRepo.SingleRowStaysNonNegative | storage/postgres/sale_product.go:57-98 | with one ledger row per pair and no negative rows, success keeps every row non-negative |
| SaleProductRepo.DuplicateRowsGoNegative | storage/postgres/sale_product.go:57-98 | with rows 5 and 1 for the pair, selling 3 leaves 2 and -2 |
| SaleProductRepo.SaleBranchSameKeys | storage/postgres/sale_product.go:51 | the branch lookup depends only on ids and branches |
| SaleProductRepo.SaleBranchIgnoresTotals | storage/postgres/sale_product.go:89 | raising a total does not change the branch lookup |
| SaleProductRepo.FirstRowIgnoresQuantities | storage/postgres/sale_product.go:94 | the deduction does not change which row is checked |
| SaleProductRepo.SequentialSalesCannotOversell | storage/postgres/sale_product.go:57-98 | for an existing sale, after a sale leaves too little stock the next one for the same pair is refused |
| PickingListHandler.LastComing | api/handler/picking_list.go:56-61 | the last coming with the increment id, or proof that none has it |
| PickingListHandler.ComingRef | api/handler/picking_list.go:56-61 | the last match's id and branch, or the body's coming id and "" |
| PickingListHandler.FindComing | api/handler/picking_list.go:56-61 | the loop yields the last match's id and branch; when none matches, the coming id from the request body and branch "" |
| PickingListHandler.BuildStockUpdate | api/handler/picking_list.go:95-107 | the first row for (branch, product) with the quantity raised and the product's current sale price, or the zero row |
| PickingListHandler.StockUpdate | api/handler/picking_list.go:95-117 | the update request: the first matching row raised by the quantity with the product's price, or the zero row with the empty id (BuildStockUpdate states it) |
| PickingListHandler.UpdateRemainder | api/handler/picking_list.go:109-117 | same length, ids and names kept (the name column is not written), rows with other ids unchanged |
| PickingListHandler.NewStockRow | api/handler/picking_list.go:79-86 | the created row: product id and name, picked quantity and price, product price, coming's branch (EmptyLedgerCreatesRow states it) |
| PickingListHandler.Receive | api/handler/picking_list.go:77-117 | an empty ledger becomes the one new row; otherwise the length, ids and names are kept |
| PickingListHandler.CreatePickingList | api/handler/picking_list.go:26-124 | the picking-list row, with the matched coming's id or else the body's, is always appended; an unknown product gives 400 with the ledger unchanged; otherwise the ledger becomes Receive(…) with 202 for an empty ledger and 201 else |
| PickingListHandler.UpdateKeepsIds | api/handler/picking_list.go:109-117 | an update by id keeps ledger ids unique |
| PickingListHandler.EmptyLedgerCreatesRow | api/handler/picking_list.go:78-88 | an empty ledger gets exactly one row with the picked quantity and price, the product's name and price, and the coming's branch |
| PickingListHandler.MatchedRowRestocked | api/handler/picking_list.go:95-117 | the first matching row gains the quantity and takes the product's price, keeps coming price and name; other rows are unchanged |
| PickingListHandler.UnmatchedReceiptIsLost | api/handler/picking_list.go:95-117 | a non-empty ledger without a matching row is left exactly as it was |
| PickingListHandler.ReceiptsAccumulate | api/handler/picking_list.go:77-117 | two receipts of one product at one branch from an empty ledger give one row holding the sum |
| PickingListHandler.NewProductOnNonEmptyLedger | api/handler/picking_list.go:77-117 | a first receipt of a new product on a non-empty ledger records nothing |
| BusinessLogic.LastPayable | api/handler/businesslogic.go:43-57 | the last sale with the increment id and total/2 < money, or proof that there is none |
| BusinessLogic.BuildPayment | api/handler/businesslogic.go:43-66 | the request is that sale with paid := money and debt := total − money, or the empty-id zero request |
| BusinessLogic.PaymentUpdate | api/handler/businesslogic.go:43-66 | the request MakePay sends (BuildPayment states it) |
| BusinessLogic.UpdateSaleRow | api/handler/businesslogic.go:58-66 | same length; the row with the request's id becomes the request, the others are unchanged |
| BusinessLogic.Pay | api/handler/businesslogic.go:43-66 | same length; each sale is either unchanged or keeps its id with paid set to the money |
| BusinessLogic.MakePay | api/handler/businesslogic.go:27-73 | the sales become Pay(…), no other table changes, ids stay unique, and the status is always 202 |
| BusinessLogic.PayKeepsIds | api/handler/businesslogic.go:58-66 | the update keeps sale ids unique |
| BusinessLogic.PaymentAccepted | api/handler/businesslogic.go:50-66 | the chosen sale gets paid and debt overwritten and keeps its other columns; other sales are unchanged |
| BusinessLogic.PaymentIgnored | api/handler/businesslogic.go:58-72 | when nothing qualifies no sale changes |
| BusinessLogic.PaymentThreshold | api/handler/businesslogic.go:43-45 | for a unique increment id, the payment is taken exactly when money > total/2 |
| BusinessLogic.PaymentExamples | api/handler/businesslogic.go:43-45 | with total 1000, 400 and 500 are refused and 600 is taken, leaving debt 400 |
| BusinessLogic.PaymentsOverwrite | api/handler/businesslogic.go:64-65 | after two accepted payments, paid is the second amount |
| BusinessLogic.ParseDate | api/handler/businesslogic.go:94 | an accepted date has the YYYY-MM-DD shape with a real month and a day within that month |
| BusinessLogic.Pad2Digits | api/handler/businesslogic.go:94 | two digits read and written back give the same text |
| BusinessLogic.Pad4Digits | api/handler/businesslogic.go:94 | four digits read and written back give the same text |
| BusinessLogic.FormatThenParse | api/handler/businesslogic.go:94 | every valid day with a four-digit year, written YYYY-MM-DD, is accepted and read back as that day |
| BusinessLogic.ParseThenFormat | api/handler/businesslogic.go:94 | an accepted text is exactly the YYYY-MM-DD writing of the day read from it |
| BusinessLogic.CreatedDay | api/handler/businesslogic.go:114 | created_at cut to ten characters and parsed; none when it is shorter (the slice panics) or does not parse |
| BusinessLogic.Window | api/handler/businesslogic.go:113-125 | no longer than the client list and every listed client inside the window (WindowMembers gives the converse) |
| BusinessLogic.Registration | api/handler/businesslogic.go:87-128 | a bad from or to date is an error; the result is a list exactly when both dates and every created_at prefix parse, and then it is Window(…) |
| BusinessLogic.FilterClients | api/handler/businesslogic.go:113-125 | the loop gives a list exactly when every created_at prefix parses, and then it is Window(…) |
| BusinessLogic.WindowMembers | api/handler/businesslogic.go:113-125 | a client is listed exactly when it is a client whose day is strictly between from and to |
| BusinessLogic.WindowExcludesBounds | api/handler/businesslogic.go:120 | a client created on from or on to is not listed |
| BusinessLogic.BranchWithId | api/handler/businesslogic.go:152-156 | a found branch has the id; none found means no branch has it |
| BusinessLogic.BranchTotal | api/handler/businesslogic.go:170-175 | non-negative when every total is, zero when the branch has no sale |
| BusinessLogic.QuantityOf | api/handler/businesslogic.go:176-180 | non-negative when every quantity is, zero when no item has the sale id |
| BusinessLogic.LastBranchSale | api/handler/businesslogic.go:170-175 | "" when the branch has no sale, else the id of its last sale |
| BusinessLogic.BranchDoc | api/handler/businesslogic.go:141-183 | an unknown branch is an error; otherwise the report carries the branch name, the sum of its sale totals and the quantities of the last sale's items |
| BusinessLogic.BranchDocCountsLastSaleOnly | api/handler/businesslogic.go:170-180 | with two sales of the branch, the price covers both and the quantity only the later one |
| BusinessLogic.BranchTotalSplit | api/handler/businesslogic.go:170-175 | the total over a split list is the sum of the parts' totals |
| BusinessLogic.BranchWithoutSales | api/handler/businesslogic.go:146-180 | a branch without sales totals 0 and its quantity is taken over the items whose sale id is "" |

## Left out

- Concurrency: requests are modelled one after another. Two requests that
  interleave their read and their write are not modelled, in `GetLast` or in
  the ledger updates.
- Floating point: prices, totals and money are `real`, and the arithmetic is
  exact. float64 rounding is not modelled.
- Integer widths: ledger quantities are unbounded `int`.
  - `int(quantity.Int64) + createPickingList.Quantity`
    (api/handler/picking_list.go:113) is Go `int` arithmetic. Its
    wrap-around at 2^63 is not modelled.
  - `quantity - $1` (storage/postgres/sale_product.go:94) runs inside the SQL
    UPDATE. An overflow there is a database error at the column's width. It
    would show up as a refused stock write, which the `failing` parameter of
    `SaleProductRepo.Create` already covers.
- Store read errors: a failed `GetList`/`GetByID` read (context timeout,
  connection loss) is not modelled in the handlers. Two reads inside
  `saleProductRepo.Create` are not modelled either:
  - The sale lookup (storage/postgres/sale_product.go:51) ignores its error.
    Any read failure there behaves like an unknown sale. The model has only
    the missing-row case.
  - The `GetByID` read-back (storage/postgres/sale_product.go:99) can fail
    after all three writes. That would turn a stored line item into an
    error. The model returns the item. A failure of one of the
  three writes is modelled in `SaleProductRepo.Create`, through its
  `failing` parameter. In `CreatePickingList` and `MakePay` the writes
  always succeed.
- Two list reads do not return the table as it is, and the model does not
  capture that. It takes each fetched list to be the table.
  - The line-item list selects ten columns but scans nine targets
    (storage/postgres/sale_product.go:189-198 against 221-230). The driver
    refuses such a scan, so `BranchDoc` answers 500 whenever any line item
    exists. Otherwise it reports quantity 0. The model sums the line items.
  - The client list scans `updated_at` into `CreatedAt`
    (storage/postgres/client.go:166-167 against 204-205). `Registration`
    therefore filters clients by the day they were last updated. The model
    filters by the `createdAt` field it is given.
- The JSON bind error of `CreatePickingList` (the request body not decoding)
  is not modelled. The request arrives decoded.
- List limits (`Limit: 1000`, `10000`, `1000000`) are not modelled. The
  whole table is listed.
- `cast.ToFloat64`, `time.Parse` and `uuid.New` are library code. Money
  arrives as a `real`. New ids are parameters. `ParseDate` models the
  "2006-01-02" layout as four digits, two, two, with a sign-prefixed year
  taken as malformed.
- The string-wise `MAX` of the `GetLast` query is SQL behaviour. Its result
  is an input to `GetLast`.
- Byte offsets: strings are sequences of characters. Go's slices and
  `len` count UTF-8 bytes. This matters for `last_Id[2:]`
  (pkg/helpers/incrementID.go:44), which also panics below two bytes. The
  two counts agree on ASCII text only. A non-ASCII maximum can reach
  `GetLast`, since the sale update writes `increment_id` from the request. For `"é5"` Go parses `"5"` and
  returns `"0000006"`, while the model returns `BadNumber`. `CreatedDay`'s
  ten-character cut is not affected. When the first ten characters are
  ASCII, they are the first ten bytes. Otherwise the date parse fails
  either way.
- `GetLast`: its contract states the result for a non-negative parsed
  suffix only. A negative suffix (such as "S--5") goes through the same
  slicing in the body, but no property is stated for it.
- The "no such product" return of `saleProductRepo.Create` is not
  reachable with pgx v4, so the model has no such error.
- Logging (`fmt.Println`, `log.Println`) and the gin response writing are
  I/O. `HandleResponse` returns the envelope.
- The plain create/get/list/update/delete handlers and repositories, the
  SQL text, routing, Swagger and program start-up are not part of this
  model.

=== FILE: business_logic.dfy ===
/** The three cross-entity operations of api/handler/businesslogic.go:
    recording a payment against a sale, listing the clients registered in a
    date window, and summing a branch's sales. */
module BusinessLogic {
  import opened Wrappers
  import opened Strconv
  import opened Models
  import opened Storage

  const StatusAccepted: int := 202

  // ---------------------------------------------------------------------
  // MakePay (businesslogic.go:27-73)

  /** A sale takes the payment when its increment id is the requested one
      and the money is strictly more than half its total. */
  predicate Payable(s: Sale, incrementId: string, money: real) {
    s.incrementId == incrementId && s.totalPrice / 2.0 < money
  }

  /** The position of the last payable sale in list order. */
  function LastPayable(sales: seq<Sale>, incrementId: string, money: real): (r: Option<nat>)
    ensures r.Some? ==> r.value < |sales| && Payable(sales[r.value], incrementId, money)
    ensures r.Some? ==> forall j :: r.value < j < |sales| ==> !Payable(sales[j], incrementId, money)
    ensures r.None? ==> forall j :: 0 <= j < |sales| ==> !Payable(sales[j], incrementId, money)
  {
    if sales == [] then None
    else if Payable(sales[|sales| - 1], incrementId, money) then Some(|sales| - 1)
    else LastPayable(sales[..|sales| - 1], incrementId, money)
  }

  /** The update request MakePay sends: the chosen sale's columns with paid
      set to the money and debt to total minus money; zero values and the
      empty id when no sale is payable. */
  function PaymentUpdate(sales: seq<Sale>, incrementId: string, money: real): Sale {
    match LastPayable(sales, incrementId, money)
    case Some(i) =>
      Sale(sales[i].id, sales[i].clientId, sales[i].branchId, sales[i].incrementId,
           sales[i].totalPrice, money, sales[i].totalPrice - money)
    case None => Sale("", "", "", "", 0.0, money, 0.0 - money)
  }

  /** The loop at businesslogic.go:43-57 and the request built at 58-66. */
  method BuildPayment(sales: seq<Sale>, incrementId: string, money: real) returns (update: Sale)
    ensures LastPayable(sales, incrementId, money).Some? ==>
              var i := LastPayable(sales, incrementId, money).value;
              update == sales[i].(paid := money, debt := sales[i].totalPrice - money)
    ensures LastPayable(sales, incrementId, money).None? ==>
              update == Sale("", "", "", "", 0.0, money, 0.0 - money)
  {
    var id, clientId, branchId, incId, totalPrice := "", "", "", "", 0.0;
    for i := 0 to |sales|
      invariant PaymentUpdate(sales[..i], incrementId, money)
                == Sale(id, clientId, branchId, incId, totalPrice, money, totalPrice - money)
    {
      assert sales[..i + 1][..i] == sales[..i];
      var v := sales[i];
      if v.incrementId == incrementId {
        if v.totalPrice / 2.0 < money {
          id, clientId, branchId, incId, totalPrice := v.id, v.clientId, v.branchId, v.incrementId, v.totalPrice;
        }
      }
    }
    assert sales[..|sales|] == sales;
    update := Sale(id, clientId, branchId, incId, totalPrice, money, totalPrice - money);
  }

  /** `UPDATE sale SET branch_id, client_id, increment_id, total_price, paid,
      debt WHERE id = $1`. */
  function UpdateSaleRow(sales: seq<Sale>, update: Sale): (r: seq<Sale>)
    ensures |r| == |sales|
    ensures forall i :: 0 <= i < |sales| && sales[i].id == update.id ==> r[i] == update
    ensures forall i :: 0 <= i < |sales| && sales[i].id != update.id ==> r[i] == sales[i]
  {
    seq(|sales|, i requires 0 <= i < |sales| =>
      if sales[i].id == update.id
      then sales[i].(branchId := update.branchId, clientId := update.clientId,
                     incrementId := update.incrementId, totalPrice := update.totalPrice,
                     paid := update.paid, debt := update.debt)
      else sales[i])
  }

  /** The sale table after MakePay. */
  function Pay(sales: seq<Sale>, incrementId: string, money: real): (r: seq<Sale>)
    ensures |r| == |sales|
    ensures forall i :: 0 <= i < |sales| ==> r[i] == sales[i] || (r[i].id == sales[i].id && r[i].paid == money)
  {
    UpdateSaleRow(sales, PaymentUpdate(sales, incrementId, money))
  }

  /** MakePay over the in-memory store; the money is the already-converted
      query parameter. The reply is 202 whether or not a sale took the payment. */
  method MakePay(db: Store, incrementId: string, money: real) returns (status: int)
    requires db.Valid()
    modifies db
    ensures db.Valid()
    ensures db.sales == Pay(old(db.sales), incrementId, money)
    ensures db.products == old(db.products) && db.remainders == old(db.remainders)
    ensures db.saleProducts == old(db.saleProducts) && db.comings == old(db.comings)
    ensures db.pickingLists == old(db.pickingLists)
    ensures status == StatusAccepted
  {
    var update := BuildPayment(db.sales, incrementId, money);
    PayKeepsIds(db.sales, incrementId, money);
    db.sales := UpdateSaleRow(db.sales, update);
    status := StatusAccepted;
  }

  lemma PayKeepsIds(sales: seq<Sale>, incrementId: string, money: real)
    requires UniqueSaleIds(sales)
    ensures UniqueSaleIds(Pay(sales, incrementId, money))
  {
    var u := Pay(sales, incrementId, money);
    assert forall i :: 0 <= i < |sales| ==> u[i].id == sales[i].id;
  }

  /** An accepted payment overwrites paid and debt of the chosen sale and
      nothing else; branch, client, increment id and total are written back
      as they were, and every other sale is unchanged. */
  lemma PaymentAccepted(sales: seq<Sale>, incrementId: string, money: real)
    requires UniqueSaleIds(sales)
    requires LastPayable(sales, incrementId, money).Some?
    ensures var i := LastPayable(sales, incrementId, money).value;
            var r := Pay(sales, incrementId, money);
            && |r| == |sales|
            && r[i] == sales[i].(paid := money, debt := sales[i].totalPrice - money)
            && forall j :: 0 <= j < |sales| && j != i ==> r[j] == sales[j]
  {
  }

  /** When no sale is payable the update goes to the empty id and no sale changes. */
  lemma PaymentIgnored(sales: seq<Sale>, incrementId: string, money: real)
    requires UniqueSaleIds(sales)
    requires LastPayable(sales, incrementId, money).None?
    ensures Pay(sales, incrementId, money) == sales
  {
    var r := Pay(sales, incrementId, money);
    assert forall j :: 0 <= j < |sales| ==> r[j] == sales[j];
  }

  /** For a sale whose increment id is unique, the payment is taken exactly
      when the money is strictly more than half the total. */
  lemma PaymentThreshold(sales: seq<Sale>, i: nat, money: real)
    requires UniqueSaleIds(sales)
    requires i < |sales|
    requires forall j :: 0 <= j < |sales| && j != i ==> sales[j].incrementId != sales[i].incrementId
    ensures sales[i].totalPrice / 2.0 < money ==>
              Pay(sales, sales[i].incrementId, money)
                == sales[i := sales[i].(paid := money, debt := sales[i].totalPrice - money)]
    ensures !(sales[i].totalPrice / 2.0 < money) ==> Pay(sales, sales[i].incrementId, money) == sales
  {
    var inc := sales[i].incrementId;
    if sales[i].totalPrice / 2.0 < money {
      assert LastPayable(sales, inc, money) == Some(i);
      PaymentAccepted(sales, inc, money);
    } else {
      PaymentIgnored(sales, inc, money);
    }
  }

  /** A sale of total 1000: 400 and 500 are refused, 600 is taken with a debt of 400. */
  lemma PaymentExamples()
    ensures var sales := [Sale("s1", "c1", "b1", "S-0000001", 1000.0, 0.0, 0.0)];
            && Pay(sales, "S-0000001", 400.0) == sales
            && Pay(sales, "S-0000001", 500.0) == sales
            && Pay(sales, "S-0000001", 600.0) == [Sale("s1", "c1", "b1", "S-0000001", 1000.0, 600.0, 400.0)]
  {
    var sales := [Sale("s1", "c1", "b1", "S-0000001", 1000.0, 0.0, 0.0)];
    PaymentThreshold(sales, 0, 400.0);
    PaymentThreshold(sales, 0, 500.0);
    PaymentThreshold(sales, 0, 600.0);
  }

  /** Payments overwrite rather than accumulate: after two accepted payments
      on a sale with a unique increment id, paid is the second amount. */
  lemma PaymentsOverwrite(sales: seq<Sale>, i: nat, first: real, second: real)
    requires UniqueSaleIds(sales)
    requires i < |sales|
    requires forall j :: 0 <= j < |sales| && j != i ==> sales[j].incrementId != sales[i].incrementId
    requires sales[i].totalPrice / 2.0 < first && sales[i].totalPrice / 2.0 < second
    ensures var inc := sales[i].incrementId;
            var r := Pay(Pay(sales, inc, first), inc, second);
            |r| == |sales| && r[i].paid == second && r[i].debt == sales[i].totalPrice - second
  {
    var inc := sales[i].incrementId;
    PaymentThreshold(sales, i, first);
    var once := Pay(sales, inc, first);
    PayKeepsIds(sales, inc, first);
    PaymentThreshold(once, i, second);
  }

  // ---------------------------------------------------------------------
  // Registration (businesslogic.go:87-128)

  /** A calendar day, as time.Parse with the layout "2006-01-02" yields it. */
  datatype Date = Date(year: int, month: int, day: int)

  predicate IsLeap(year: int) {
    year % 4 == 0 && (year % 100 != 0 || year % 400 == 0)
  }

  function DaysIn(month: int, year: int): int {
    if month == 2 then (if IsLeap(year) then 29 else 28)
    else if month == 4 || month == 6 || month == 9 || month == 11 then 30
    else 31
  }

  /** A day of the calendar that the layout can write: four-digit year, a
      month of the year and a day of that month. */
  predicate ValidDate(d: Date) {
    0 <= d.year <= 9999 && 1 <= d.month <= 12 && 1 <= d.day <= DaysIn(d.month, d.year)
  }

  /** time.Parse("2006-01-02", s): four year digits, '-', two month digits,
      '-', two day digits and nothing more, with a month of the year and a
      day of that month. */
  function ParseDate(s: string): (r: Option<Date>)
    ensures r.Some? ==> |s| == 10 && s[4] == '-' && s[7] == '-' && ValidDate(r.value)
  {
    if |s| != 10 || s[4] != '-' || s[7] != '-' then None
    else if !(AllDigits(s[..4]) && AllDigits(s[5..7]) && AllDigits(s[8..])) then None
    else
      var year := Digits4(s[..4]);
      var month := Digits2(s[5..7]);
      var day := Digits2(s[8..]);
      if 1 <= month <= 12 && 1 <= day <= DaysIn(month, year) then Some(Date(year, month, day)) else None
  }

  /** The value of two decimal digits. */
  function Digits2(s: string): (n: nat)
    requires |s| == 2 && AllDigits(s)
    ensures n < 100
  {
    DigitValue(s[0]) * 10 + DigitValue(s[1])
  }

  /** The value of four decimal digits. */
  function Digits4(s: string): (n: nat)
    requires |s| == 4 && AllDigits(s)
    ensures n < 10000
  {
    DigitValue(s[0]) * 1000 + DigitValue(s[1]) * 100 + DigitValue(s[2]) * 10 + DigitValue(s[3])
  }

  /** n written in two digits, zero-padded. */
  function Pad2(n: nat): (s: string)
    requires n < 100
    ensures |s| == 2 && AllDigits(s) && Digits2(s) == n
  {
    [DigitChar(n / 10), DigitChar(n % 10)]
  }

  /** n written in four digits, zero-padded. */
  function Pad4(n: nat): (s: string)
    requires n < 10000
    ensures |s| == 4 && AllDigits(s) && Digits4(s) == n
  {
    Pad2(n / 100) + Pad2(n % 100)
  }

  /** d.Format("2006-01-02"). */
  function FormatDate(d: Date): (s: string)
    requires ValidDate(d)
    ensures |s| == 10
  {
    Pad4(d.year) + "-" + Pad2(d.month) + "-" + Pad2(d.day)
  }

  lemma DigitCharOfValue(c: char)
    requires IsDigit(c)
    ensures DigitChar(DigitValue(c)) == c
  {
  }

  /** Writing two digits back gives the text they were read from. */
  lemma Pad2Digits(s: string)
    requires |s| == 2 && AllDigits(s)
    ensures Pad2(Digits2(s)) == s
  {
    DigitCharOfValue(s[0]);
    DigitCharOfValue(s[1]);
  }

  /** Writing four digits back gives the text they were read from. */
  lemma Pad4Digits(s: string)
    requires |s| == 4 && AllDigits(s)
    ensures Pad4(Digits4(s)) == s
  {
    var n := Digits4(s);
    assert n == Digits2(s[..2]) * 100 + Digits2(s[2..]);
    assert n / 100 == Digits2(s[..2]) && n % 100 == Digits2(s[2..]);
    Pad2Digits(s[..2]);
    Pad2Digits(s[2..]);
    assert s == s[..2] + s[2..];
  }

  /** Every day the layout can write is read back as that day. */
  lemma FormatThenParse(d: Date)
    requires ValidDate(d)
    ensures ParseDate(FormatDate(d)) == Some(d)
  {
    var s := FormatDate(d);
    assert s[..4] == Pad4(d.year);
    assert s[5..7] == Pad2(d.month);
    assert s[8..] == Pad2(d.day);
  }

  /** An accepted text is exactly the layout's writing of the day read from
      it: the year, month and day are the three digit groups. */
  lemma ParseThenFormat(s: string)
    requires ParseDate(s).Some?
    ensures FormatDate(ParseDate(s).value) == s
  {
    var d := ParseDate(s).value;
    Pad4Digits(s[..4]);
    Pad2Digits(s[5..7]);
    Pad2Digits(s[8..]);
    assert s == s[..4] + "-" + s[5..7] + "-" + s[8..];
  }

  /** Midnight of a is before midnight of b. */
  predicate Before(a: Date, b: Date) {
    a.year < b.year || (a.year == b.year && (a.month < b.month || (a.month == b.month && a.day < b.day)))
  }

  /** The registration day of a client: its created_at cut to ten characters
      and parsed. A shorter created_at makes the slice panic. */
  function CreatedDay(c: Client): Option<Date> {
    if |c.createdAt| < 10 then None else ParseDate(c.createdAt[..10])
  }

  predicate InsideWindow(c: Client, from: Date, to: Date) {
    CreatedDay(c).Some? && Before(from, CreatedDay(c).value) && Before(CreatedDay(c).value, to)
  }

  /** The clients registered strictly between the two days, in list order. */
  function Window(clients: seq<Client>, from: Date, to: Date): (r: seq<Client>)
    ensures |r| <= |clients|
    ensures forall i :: 0 <= i < |r| ==> InsideWindow(r[i], from, to)
  {
    if clients == [] then []
    else
      var rest := Window(clients[..|clients| - 1], from, to);
      var last := clients[|clients| - 1];
      if InsideWindow(last, from, to) then rest + [last] else rest
  }

  datatype RegistrationError =
    | BadFromDate
    | BadToDate
    | BadCreatedAt(clientId: string)    // time.Parse refused a client's date prefix
    | ShortCreatedAt(clientId: string)  // created_at[:10] panics (recovered as a 500)

  /** Registration with the client list already fetched. */
  method Registration(fromText: string, toText: string, clients: seq<Client>)
    returns (r: Result<seq<Client>, RegistrationError>)
    ensures ParseDate(fromText).None? ==> r == Err(BadFromDate)
    ensures ParseDate(fromText).Some? && ParseDate(toText).None? ==> r == Err(BadToDate)
    ensures r.Ok? <==> ParseDate(fromText).Some? && ParseDate(toText).Some?
                       && forall c :: c in clients ==> CreatedDay(c).Some?
    ensures r.Ok? ==> r.value == Window(clients, ParseDate(fromText).value, ParseDate(toText).value)
  {
    var from := ParseDate(fromText);
    if from.None? {
      return Err(BadFromDate);
    }
    var to := ParseDate(toText);
    if to.None? {
      return Err(BadToDate);
    }
    r := FilterClients(clients, from.value, to.value);
  }

  /** The loop at businesslogic.go:113-125: the clients inside the window,
      or the error of the first client whose created_at does not parse. */
  method FilterClients(clients: seq<Client>, from: Date, to: Date)
    returns (r: Result<seq<Client>, RegistrationError>)
    ensures r.Ok? <==> forall c :: c in clients ==> CreatedDay(c).Some?
    ensures r.Ok? ==> r.value == Window(clients, from, to)
  {
    var found: seq<Client> := [];
    for i := 0 to |clients|
      invariant found == Window(clients[..i], from, to)
      invariant forall j :: 0 <= j < i ==> CreatedDay(clients[j]).Some?
    {
      assert clients[..i + 1][..i] == clients[..i];
      var v := clients[i];
      if |v.createdAt| < 10 {
        assert v in clients && CreatedDay(v).None?;
        return Err(ShortCreatedAt(v.id));
      }
      var createdAt := ParseDate(v.createdAt[..10]);
      assert createdAt == CreatedDay(v);
      if createdAt.None? {
        assert v in clients;
        return Err(BadCreatedAt(v.id));
      }
      if Before(createdAt.value, to) && Before(from, createdAt.value) {
        found := found + [v];
      }
    }
    assert clients[..|clients|] == clients;
    return Ok(found);
  }

  /** A client is listed exactly when it is one of the clients and its
      registration day lies strictly inside the window. */
  lemma {:induction false} WindowMembers(clients: seq<Client>, from: Date, to: Date, c: Client)
    ensures c in Window(clients, from, to) <==> c in clients && InsideWindow(c, from, to)
  {
    if clients != [] {
      var init := clients[..|clients| - 1];
      assert clients == init + [clients[|clients| - 1]];
      WindowMembers(init, from, to, c);
    }
  }

  /** Both ends of the window are exclusive. */
  lemma WindowExcludesBounds(c: Client, from: Date, to: Date)
    requires CreatedDay(c) == Some(from) || CreatedDay(c) == Some(to)
    ensures Window([c], from, to) == []
  {
    assert [c][..0] == [];
  }

  // ---------------------------------------------------------------------
  // BranchDoc (businesslogic.go:141-183)

  /** The report models.Doc. */
  datatype Doc = Doc(branchId: string, branchName: string, totalSalePrice: real, totalSaleQuantity: int)

  datatype DocError = NoSuchBranch

  /** `SELECT … FROM branch WHERE id = $1`. */
  function BranchWithId(branches: seq<Branch>, id: string): (r: Option<Branch>)
    ensures r.Some? ==> r.value in branches && r.value.id == id
    ensures r.None? ==> forall b :: b in branches ==> b.id != id
  {
    if branches == [] then None
    else if branches[0].id == id then Some(branches[0])
    else BranchWithId(branches[1..], id)
  }

  /** The sum of the totals of the branch's sales. */
  function BranchTotal(sales: seq<Sale>, branchId: string): (total: real)
    ensures (forall i :: 0 <= i < |sales| ==> sales[i].totalPrice >= 0.0) ==> total >= 0.0
    ensures (forall i :: 0 <= i < |sales| ==> sales[i].branchId != branchId) ==> total == 0.0
  {
    if sales == [] then 0.0
    else
      var last := sales[|sales| - 1];
      BranchTotal(sales[..|sales| - 1], branchId) + (if last.branchId == branchId then last.totalPrice else 0.0)
  }

  /** The id of the last sale of the branch in list order, "" when it has none. */
  function LastBranchSale(sales: seq<Sale>, branchId: string): (id: string)
    ensures (forall j :: 0 <= j < |sales| ==> sales[j].branchId != branchId) ==> id == ""
    ensures (exists j :: 0 <= j < |sales| && sales[j].branchId == branchId) ==>
              exists j :: 0 <= j < |sales| && sales[j].branchId == branchId && sales[j].id == id
                && forall k :: j < k < |sales| ==> sales[k].branchId != branchId
  {
    if sales == [] then ""
    else if sales[|sales| - 1].branchId == branchId then sales[|sales| - 1].id
    else LastBranchSale(sales[..|sales| - 1], branchId)
  }

  /** The sum of the quantities of the line items recorded against a sale id. */
  function QuantityOf(items: seq<SaleProduct>, saleId: string): (q: int)
    ensures (forall i :: 0 <= i < |items| ==> items[i].quantity >= 0) ==> q >= 0
    ensures (forall i :: 0 <= i < |items| ==> items[i].saleId != saleId) ==> q == 0
  {
    if items == [] then 0
    else
      var last := items[|items| - 1];
      QuantityOf(items[..|items| - 1], saleId) + (if last.saleId == saleId then last.quantity else 0)
  }

  /** BranchDoc with the branch, sale and line-item lists already fetched. */
  method BranchDoc(branchId: string, branches: seq<Branch>, sales: seq<Sale>, items: seq<SaleProduct>)
    returns (r: Result<Doc, DocError>)
    ensures BranchWithId(branches, branchId).None? ==> r == Err(NoSuchBranch)
    ensures BranchWithId(branches, branchId).Some? ==>
              r == Ok(Doc(branchId, BranchWithId(branches, branchId).value.name, BranchTotal(sales, branchId),
                          QuantityOf(items, LastBranchSale(sales, branchId))))
  {
    var branch := BranchWithId(branches, branchId);
    if branch.None? {
      return Err(NoSuchBranch);
    }
    var totalSalePrice, saleId := 0.0, "";
    for i := 0 to |sales|
      invariant totalSalePrice == BranchTotal(sales[..i], branchId)
      invariant saleId == LastBranchSale(sales[..i], branchId)
    {
      assert sales[..i + 1][..i] == sales[..i];
      if sales[i].branchId == branchId {
        totalSalePrice := totalSalePrice + sales[i].totalPrice;
        saleId := sales[i].id;
      }
    }
    assert sales[..|sales|] == sales;
    var totalSaleQuantity := 0;
    for i := 0 to |items|
      invariant totalSaleQuantity == QuantityOf(items[..i], saleId)
    {
      assert items[..i + 1][..i] == items[..i];
      if items[i].saleId == saleId {
        totalSaleQuantity := totalSaleQuantity + items[i].quantity;
      }
    }
    assert items[..|items|] == items;
    return Ok(Doc(branchId, branch.value.name, totalSalePrice, totalSaleQuantity));
  }

  /** The quantity counts the items of one sale only: of two sales of the
      branch, only the later one's items are summed, while the price total
      covers both. */
  lemma BranchDocCountsLastSaleOnly()
    ensures var sales := [Sale("s1", "c1", "b1", "S-0000001", 30.0, 0.0, 0.0),
                          Sale("s2", "c2", "b1", "S-0000002", 20.0, 0.0, 0.0)];
            var items := [SaleProduct("i1", "p1", "s1", "S-0000001", 3, 10.0, 30.0),
                          SaleProduct("i2", "p1", "s2", "S-0000002", 2, 10.0, 20.0)];
            && BranchTotal(sales, "b1") == 50.0
            && QuantityOf(items, LastBranchSale(sales, "b1")) == 2
  {
    var sales := [Sale("s1", "c1", "b1", "S-0000001", 30.0, 0.0, 0.0),
                  Sale("s2", "c2", "b1", "S-0000002", 20.0, 0.0, 0.0)];
    assert sales[..1] == [sales[0]];
    var items := [SaleProduct("i1", "p1", "s1", "S-0000001", 3, 10.0, 30.0),
                  SaleProduct("i2", "p1", "s2", "S-0000002", 2, 10.0, 20.0)];
    assert items[..1] == [items[0]];
  }

  /** Splitting the sale list splits the branch total. */
  lemma {:induction false} BranchTotalSplit(a: seq<Sale>, b: seq<Sale>, branchId: string)
    ensures BranchTotal(a + b, branchId) == BranchTotal(a, branchId) + BranchTotal(b, branchId)
    decreases |b|
  {
    if b != [] {
      var init := b[..|b| - 1];
      assert (a + b)[..|a + b| - 1] == a + init;
      BranchTotalSplit(a, init, branchId);
    } else {
      assert a + b == a;
    }
  }

  /** A branch without sales reports a zero total, and its quantity sums the
      line items whose sale id is empty. */
  lemma {:induction false} BranchWithoutSales(sales: seq<Sale>, branchId: string)
    requires forall j :: 0 <= j < |sales| ==> sales[j].branchId != branchId
    ensures BranchTotal(sales, branchId) == 0.0
    ensures LastBranchSale(sales, branchId) == ""
  {
    if sales != [] {
      BranchWithoutSales(sales[..|sales| - 1], branchId);
    }
  }
}

=== FILE: handler.dfy ===
/** The two request helpers every handler uses (api/handler/handler.go):
    reading an integer query parameter with a default, and wrapping a
    payload into the JSON response envelope. */
module Handler {
  import opened Wrappers
  import opened Strconv

  /** What the handler passes as `data` reaches the client either as it was
      or, for a 500, replaced by a fixed message. */
  datatype Body<T> = Payload(value: T) | Message(text: string)

  /** The JSON envelope {status, description, data}. */
  datatype Response<T> = Response(status: int, description: string, data: Body<T>)

  const Success: string := "success"
  const Failure: string := "error"
  const InternalServerError: string := "Internal Server Error"

  /** The error Atoi reports for a malformed or out-of-range parameter. */
  datatype ParseError = ParseError(input: string)

  /** getIntegerOrDefaultValue: an absent (empty) parameter gives the default;
      otherwise the parameter must be an integer Atoi accepts. */
  function GetIntegerOrDefaultValue(value: string, defaultValue: int): (r: Result<int, ParseError>)
    ensures value == "" ==> r == Ok(defaultValue)
    ensures value != "" ==> (r.Ok? <==> Atoi(value).Some?)
    ensures r.Ok? && value != "" ==> r.value == Atoi(value).value
    ensures (exists i :: 1 <= i < |value| && !IsDigit(value[i])) ==> r.Err?
  {
    if |value| <= 0 then Ok(defaultValue)
    else
      match Atoi(value)
      case Some(n) => Ok(n)
      case None => Err(ParseError(value))
  }

  /** A parameter holding the rendering of a 64-bit integer, with or without
      zero padding and with or without an explicit sign, is read back as
      that integer. */
  lemma GetIntegerRoundTrip(n: int, k: nat, defaultValue: int)
    requires Int64Min <= n <= Int64Max
    ensures GetIntegerOrDefaultValue(Itoa(n), defaultValue) == Ok(n)
    ensures n >= 0 ==> GetIntegerOrDefaultValue(Zeros(k) + Itoa(n), defaultValue) == Ok(n)
    ensures n >= 0 ==> GetIntegerOrDefaultValue("+" + Zeros(k) + Itoa(n), defaultValue) == Ok(n)
    ensures n < 0 ==> GetIntegerOrDefaultValue("-" + Zeros(k) + NatToDigits(-n), defaultValue) == Ok(n)
  {
    AtoiItoa(n);
    if n >= 0 {
      AtoiZeroPadded(k, n);
      AtoiSigned(k, n);
    } else {
      AtoiSigned(k, -n);
    }
  }

  /** The parameters the handlers read with their defaults: an empty limit is
      10, an empty offset 0, and text such as "ten" is refused. */
  lemma GetIntegerExamples()
    ensures GetIntegerOrDefaultValue("", 10) == Ok(10)
    ensures GetIntegerOrDefaultValue("", 0) == Ok(0)
    ensures GetIntegerOrDefaultValue("25", 10) == Ok(25)
    ensures GetIntegerOrDefaultValue("-3", 0) == Ok(-3)
    ensures GetIntegerOrDefaultValue("ten", 10).Err?
    ensures GetIntegerOrDefaultValue("+", 10).Err?
    ensures GetIntegerOrDefaultValue("-", 10).Err?
  {
    assert Itoa(25) == "25";
    assert Itoa(-3) == "-3";
    GetIntegerRoundTrip(25, 0, 10);
    GetIntegerRoundTrip(-3, 0, 0);
    assert !IsDigit("ten"[0]);
  }

  /** Explicitly signed and zero-padded parameters, which Atoi also accepts. */
  lemma GetIntegerSignedExamples()
    ensures GetIntegerOrDefaultValue("+7", 10) == Ok(7)
    ensures GetIntegerOrDefaultValue("+007", 10) == Ok(7)
    ensures GetIntegerOrDefaultValue("-05", 0) == Ok(-5)
  {
    assert NatToDigits(7) == "7" && NatToDigits(5) == "5";
    assert Zeros(1) == "0" && Zeros(2) == "00";
    AtoiSigned(0, 7);
    AtoiSigned(2, 7);
    AtoiSigned(1, 5);
    assert "+" + Zeros(0) + NatToDigits(7) == "+7";
    assert "+" + Zeros(2) + NatToDigits(7) == "+007";
    assert "-" + Zeros(1) + NatToDigits(5) == "-05";
  }

  /** handleResponse without the final write to the connection: the envelope
      it sends. */
  function HandleResponse<T>(status: int, data: T): (r: Response<T>)
    ensures r.status == status
    ensures r.description == Success <==> status < 400
    ensures r.description == Failure <==> status >= 400
    ensures r.data == Payload(data) <==> status != 500
    ensures status == 500 ==> r.data == Message(InternalServerError)
  {
    if status < 400 then Response(status, Success, Payload(data))
    else if status == 500 then Response(status, Failure, Message(InternalServerError))
    else Response(status, Failure, Payload(data))
  }
}

=== FILE: increment_id.dfy ===
/** The human-readable sequence numbers of sale and coming documents
    (pkg/helpers/incrementID.go). A number is a 7-character zero-padded
    decimal suffix; the callers put a 2-character kind prefix in front of it
    ("S-" for sales, "C-" for comings). */
module IncrementIds {
  import opened Wrappers
  import opened Strconv

  /** The padding template the suffix is cut from. */
  const Template: string := "0000000"

  /** What GetLast returns when the table holds no number yet. */
  const Seed: string := "0000001"

  const SalePrefix: string := "S-"
  const ComingPrefix: string := "C-"

  /** Where IncrementId cuts the template: after as many characters as n has
      when n+1 has as many, one further when the rendering of n+1 differs in
      length. The slice exists only while this position is within the template. */
  function CutPosition(n: int): int {
    if |Itoa(n + 1)| == |Itoa(n)| then |Itoa(n)| else |Itoa(n)| + 1
  }

  /** IncrementId(n): the template with its first CutPosition(n) characters
      dropped, followed by the rendering of n+1. Outside the requires the Go
      slice expression panics. */
  function IncrementId(n: int): string
    requires CutPosition(n) <= |Template|
  {
    if |Itoa(n + 1)| == |Itoa(n)| then
      Template[|Itoa(n)|..] + Itoa(n + 1)
    else
      Template[|Itoa(n)| + 1..] + Itoa(n + 1)
  }

  /** The template is all zeros, so a suffix of it is a run of zeros. */
  lemma TemplateSuffix(k: nat)
    requires k <= |Template|
    ensures Template[k..] == Zeros(|Template| - k)
  {
    var rest := Template[k..];
    assert forall i :: 0 <= i < |rest| ==> rest[i] == '0';
    OnlyZeros(rest);
  }

  /** A string made of '0' characters only is Zeros of its length. */
  lemma {:induction false} OnlyZeros(s: string)
    requires forall i :: 0 <= i < |s| ==> s[i] == '0'
    ensures s == Zeros(|s|)
  {
    if s != [] {
      OnlyZeros(s[..|s| - 1]);
      assert s == s[..|s| - 1] + ['0'];
    }
  }

  /** For non-negative n, IncrementId is defined exactly up to 9999998: at
      9999999 the rendering grows to eight digits and the cut falls past the
      end of the template. */
  lemma IncrementIdDomain(n: nat)
    ensures CutPosition(n) <= |Template| <==> n <= 9999998
  {
    assert Pow10(7) == 10000000;
    NatToDigitsLength(n, 7);
    NatToDigitsLength(n + 1, 7);
    if n <= 9999998 {
      assert |Itoa(n + 1)| <= 7;
      GrowsByOne(n);
    } else {
      assert |Itoa(n + 1)| > 7;
      GrowsByOne(n);
    }
  }

  /** Incrementing a natural number adds at most one digit to its rendering. */
  lemma {:induction false} GrowsByOne(n: nat)
    ensures |NatToDigits(n + 1)| == |NatToDigits(n)| || |NatToDigits(n + 1)| == |NatToDigits(n)| + 1
  {
    if n >= 10 {
      GrowsByOne(n / 10);
      if n % 10 == 9 {
        assert (n + 1) / 10 == n / 10 + 1;
      } else {
        assert (n + 1) / 10 == n / 10;
      }
    }
  }

  /** Whether or not the digit count grows, IncrementId(n) is seven decimal
      digits denoting n+1. */
  lemma IncrementIdValue(n: nat)
    requires n <= 9999998
    ensures CutPosition(n) <= |Template|
    ensures |IncrementId(n)| == 7
    ensures AllDigits(IncrementId(n))
    ensures DigitsValue(IncrementId(n)) == n + 1
    ensures IncrementId(n) == Zeros(7 - |Itoa(n + 1)|) + Itoa(n + 1)
  {
    IncrementIdDomain(n);
    GrowsByOne(n);
    var cut := CutPosition(n);
    TemplateSuffix(cut);
    NatToDigitsValue(n + 1);
    ZerosPrefixValue(7 - cut, Itoa(n + 1));
  }

  /** Concrete values: the seed, a carry into a new digit, and an ordinary step. */
  lemma IncrementIdExamples()
    ensures CutPosition(0) <= |Template| && IncrementId(0) == Seed
    ensures CutPosition(9) <= |Template| && IncrementId(9) == "0000010"
    ensures CutPosition(42) <= |Template| && IncrementId(42) == "0000043"
  {
    assert Itoa(0) == "0" && Itoa(1) == "1";
    assert Itoa(9) == "9" && Itoa(10) == "10";
    assert Itoa(42) == "42" && Itoa(43) == "43";
  }

  /** The top of the range: the carry into the seventh digit, the last
      number the template can hold, and the first it cannot. */
  lemma IncrementIdLimits()
    ensures CutPosition(999999) <= |Template| && IncrementId(999999) == "1000000"
    ensures CutPosition(9999998) <= |Template| && IncrementId(9999998) == "9999999"
    ensures CutPosition(9999999) > |Template|
  {
    assert Itoa(999999) == "999999" && Itoa(1000000) == "1000000";
    assert Itoa(9999998) == "9999998" && Itoa(9999999) == "9999999";
    assert Itoa(10000000) == "10000000";
  }

  /** Where the slice panics besides 9999999: every eight-digit n, the
      negative n whose rendering has eight characters, and -100000, whose
      successor is one character shorter. Between them, -100001 still fits. */
  lemma IncrementIdOutOfRange()
    ensures CutPosition(10000000) > |Template|
    ensures CutPosition(-100000) > |Template|
    ensures CutPosition(-100001) <= |Template| && IncrementId(-100001) == "-100000"
    ensures CutPosition(-1000000) > |Template|
  {
    assert Itoa(10000000) == "10000000" && Itoa(10000001) == "10000001";
    assert Itoa(-100000) == "-100000" && Itoa(-99999) == "-99999";
    assert Itoa(-100001) == "-100001";
    assert Itoa(-1000000) == "-1000000";
  }

  /** Why GetLast fails. */
  datatype GetLastError =
    | QueryFailed      // the MAX query reported an error and returned a value
    | BadNumber        // the suffix is not an integer Atoi accepts
    | IndexOutOfRange  // a slice expression panics (recovered as a 500)

  /** GetLast after its query: `maxId` is the string the MAX query scanned
      ("" when the table is empty or the scan failed) and `queryFailed`
      whether the query reported an error. */
  function GetLast(maxId: string, queryFailed: bool): (r: Result<string, GetLastError>)
    ensures maxId == "" ==> r == Ok(Seed)
    ensures maxId != "" && queryFailed ==> r == Err(QueryFailed)
    ensures maxId != "" && |maxId| < 2 ==> r.Err?
    ensures !queryFailed && |maxId| >= 2 && Atoi(maxId[2..]).None? ==> r == Err(BadNumber)
    ensures !queryFailed && |maxId| >= 2 && Atoi(maxId[2..]).Some? && Atoi(maxId[2..]).value >= 0 ==>
              (r.Ok? <==> Atoi(maxId[2..]).value <= 9999998)
    ensures r.Ok? && maxId != "" && Atoi(maxId[2..]).value >= 0 ==>
              |r.value| == 7 && AllDigits(r.value) && DigitsValue(r.value) == Atoi(maxId[2..]).value + 1
  {
    if maxId == "" then Ok(Seed)
    else if queryFailed then Err(QueryFailed)
    else if |maxId| < 2 then Err(IndexOutOfRange)
    else
      match Atoi(maxId[2..])
      case None => Err(BadNumber)
      case Some(n) =>
        if CutPosition(n) <= |Template| then
          (if n >= 0 then IncrementIdDomain(n); IncrementIdValue(n); Ok(IncrementId(n)) else Ok(IncrementId(n)))
        else
          (if n >= 0 then IncrementIdDomain(n); Err(IndexOutOfRange) else Err(IndexOutOfRange))
  }

  /** The seed equals the number that follows 0. */
  lemma SeedFollowsZero()
    ensures CutPosition(0) <= |Template|
    ensures GetLast("", false) == Ok(IncrementId(0))
    ensures GetLast("", true) == Ok(IncrementId(0))
  {
    IncrementIdExamples();
  }

  /** Round trip: when the largest stored id is a 2-character prefix followed
      by IncrementId(n), the next number is IncrementId(n+1). */
  lemma GetLastRoundTrip(prefix: string, n: nat)
    requires |prefix| == 2
    requires n <= 9999997
    ensures CutPosition(n) <= |Template| && CutPosition(n + 1) <= |Template|
    ensures GetLast(prefix + IncrementId(n), false) == Ok(IncrementId(n + 1))
  {
    IncrementIdValue(n);
    IncrementIdValue(n + 1);
    var stored := prefix + IncrementId(n);
    assert stored[2..] == IncrementId(n);
    NatToDigitsValue(n + 1);
    ZerosPrefixValue(7 - |Itoa(n + 1)|, Itoa(n + 1));
    AtoiOfDigits(IncrementId(n));
  }

  /** The next sale number after "S-0000042" is "0000043". */
  lemma NextSaleNumber()
    ensures GetLast(SalePrefix + "0000042", false) == Ok("0000043")
  {
    assert Itoa(41) == "41" && Itoa(42) == "42" && Itoa(43) == "43";
    assert IncrementId(41) == "0000042";
    assert IncrementId(42) == "0000043";
    GetLastRoundTrip(SalePrefix, 41);
  }

  /** The next coming number after "C-0000009" is "0000010". */
  lemma NextComingNumber()
    ensures GetLast(ComingPrefix + "0000009", false) == Ok("0000010")
  {
    assert Itoa(8) == "8" && Itoa(9) == "9" && Itoa(10) == "10";
    assert IncrementId(8) == "0000009";
    assert IncrementId(9) == "0000010";
    GetLastRoundTrip(ComingPrefix, 8);
  }
}

=== FILE: models.dfy ===
/** The rows of the market database, one datatype per table (the Go structs under models/).
    Ids are opaque strings, prices and money exact reals, quantities
    unbounded integers. Columns that no modelled operation reads, writes
    or hands back are dropped. */
module Models {

  datatype Branch = Branch(id: string, name: string)

  datatype Product = Product(id: string, name: string, price: real)

  /** A stock-ledger row: stock of one product at one branch. */
  datatype Remainder = Remainder(
    id: string,
    productId: string,
    name: string,
    quantity: int,
    comingPrice: real,
    salePrice: real,
    branchId: string)

  datatype Sale = Sale(
    id: string,
    clientId: string,
    branchId: string,
    incrementId: string,
    totalPrice: real,
    paid: real,
    debt: real)

  /** A sale line item, with the unit price snapshot taken when it was recorded. */
  datatype SaleProduct = SaleProduct(
    id: string,
    productId: string,
    saleId: string,
    saleIncrementId: string,
    quantity: int,
    price: real,
    totalPrice: real)

  /** A goods-receipt document. */
  datatype Coming = Coming(id: string, incrementId: string, branchId: string)

  /** A picking-list row as the insert stores it (the request's price is not
      one of the inserted columns). */
  datatype PickingList = PickingList(
    id: string,
    productId: string,
    quantity: int,
    comingId: string,
    comingIncrementId: string)

  datatype Client = Client(
    id: string,
    firstName: string,
    lastName: string,
    fatherName: string,
    phone: string,
    birthday: string,
    gender: string,
    branchId: string,
    active: string,
    createdAt: string)
}

=== FILE: picking_list.dfy ===
/** Receiving goods (Handler.CreatePickingList in api/handler/picking_list.go):
    find the coming document by its increment id, store the picking-list row,
    then add the picked quantity to the stock ledger. The ledger is
    "created" only when it is entirely empty; otherwise the first row for
    (coming's branch, product) is raised, and when there is none the update
    is issued against the empty id and changes nothing. */
module PickingListHandler {
  import opened Wrappers
  import opened Models
  import opened Storage

  /** The request body fields the handler reads; `comingId` is whatever
      the body carried under "coming_id" ("" when absent). */
  datatype PickRequest = PickRequest(productId: string, quantity: int, price: real,
                                     comingId: string, comingIncrementId: string)

  const StatusCreated: int := 201
  const StatusAccepted: int := 202
  const StatusBadRequest: int := 400

  /** The position of the last coming whose increment id matches. */
  function LastComing(comings: seq<Coming>, incrementId: string): (r: Option<nat>)
    ensures r.Some? ==> r.value < |comings| && comings[r.value].incrementId == incrementId
    ensures r.Some? ==> forall j :: r.value < j < |comings| ==> comings[j].incrementId != incrementId
    ensures r.None? ==> forall j :: 0 <= j < |comings| ==> comings[j].incrementId != incrementId
  {
    if comings == [] then None
    else if comings[|comings| - 1].incrementId == incrementId then Some(|comings| - 1)
    else LastComing(comings[..|comings| - 1], incrementId)
  }

  /** The coming id and branch the handler ends up with: those of the last
      match, or the body's own coming id and "" when nothing matches. */
  function ComingRef(comings: seq<Coming>, incrementId: string, bodyComingId: string): (string, string) {
    match LastComing(comings, incrementId)
    case Some(i) => (comings[i].id, comings[i].branchId)
    case None => (bodyComingId, "")
  }

  /** The loop at picking_list.go:56-61. */
  method FindComing(comings: seq<Coming>, incrementId: string, bodyComingId: string)
    returns (comingId: string, branchId: string)
    ensures LastComing(comings, incrementId).Some? ==>
              var i := LastComing(comings, incrementId).value;
              comingId == comings[i].id && branchId == comings[i].branchId
    ensures LastComing(comings, incrementId).None? ==> comingId == bodyComingId && branchId == ""
  {
    comingId, branchId := bodyComingId, "";
    for i := 0 to |comings|
      invariant (comingId, branchId) == ComingRef(comings[..i], incrementId, bodyComingId)
    {
      assert comings[..i + 1][..i] == comings[..i];
      if comings[i].incrementId == incrementId {
        comingId := comings[i].id;
        branchId := comings[i].branchId;
      }
    }
    assert comings[..|comings|] == comings;
  }

  /** The update request built by the loop at picking_list.go:95-107: the
      first row for (branch, product) with the picked quantity added and the
      product's current sale price; all zero values when no row matches. */
  function StockUpdate(rems: seq<Remainder>, branchId: string, product: Product, req: PickRequest): Remainder {
    match FirstRow(rems, req.productId, branchId)
    case Some(k) =>
      Remainder(rems[k].id, rems[k].productId, rems[k].name, rems[k].quantity + req.quantity,
                rems[k].comingPrice, product.price, rems[k].branchId)
    case None => Remainder("", "", "", req.quantity, 0.0, 0.0, "")
  }

  /** The loop at picking_list.go:95-107, stopping at the first match. */
  method BuildStockUpdate(rems: seq<Remainder>, branchId: string, product: Product, req: PickRequest)
    returns (update: Remainder)
    ensures FirstRow(rems, req.productId, branchId).Some? ==>
              var k := FirstRow(rems, req.productId, branchId).value;
              update == rems[k].(quantity := rems[k].quantity + req.quantity, salePrice := product.price)
    ensures FirstRow(rems, req.productId, branchId).None? ==>
              update == Remainder("", "", "", req.quantity, 0.0, 0.0, "")
  {
    var id, productId, name, quantity, comingPrice, salePrice, rowBranch := "", "", "", 0, 0.0, 0.0, "";
    var i := 0;
    while i < |rems|
      invariant 0 <= i <= |rems|
      invariant forall j :: 0 <= j < i ==> !Stocks(rems[j], req.productId, branchId)
      invariant (id, productId, name, quantity, comingPrice, salePrice, rowBranch) == ("", "", "", 0, 0.0, 0.0, "")
    {
      var v := rems[i];
      if v.branchId == branchId && v.productId == req.productId {
        id, productId, name, quantity := v.id, v.productId, v.name, v.quantity;
        comingPrice, salePrice, rowBranch := v.comingPrice, product.price, v.branchId;
        break;
      }
      i := i + 1;
    }
    update := Remainder(id, productId, name, quantity + req.quantity, comingPrice, salePrice, rowBranch);
  }

  /** `UPDATE remainder SET product_id, quantity, coming_price, sale_price,
      branch_id WHERE id = $1`: the name column is not written. */
  function UpdateRemainder(rems: seq<Remainder>, update: Remainder): (r: seq<Remainder>)
    ensures |r| == |rems|
    ensures forall i :: 0 <= i < |rems| ==> r[i].id == rems[i].id && r[i].name == rems[i].name
    ensures forall i :: 0 <= i < |rems| && rems[i].id != update.id ==> r[i] == rems[i]
  {
    seq(|rems|, i requires 0 <= i < |rems| =>
      if rems[i].id == update.id
      then rems[i].(productId := update.productId, quantity := update.quantity,
                    comingPrice := update.comingPrice, salePrice := update.salePrice,
                    branchId := update.branchId)
      else rems[i])
  }

  /** The row created when the ledger is empty. */
  function NewStockRow(rowId: string, product: Product, branchId: string, req: PickRequest): Remainder {
    Remainder(rowId, product.id, product.name, req.quantity, req.price, product.price, branchId)
  }

  /** The ledger after a receipt of `req` at `branchId` of `product`. */
  function Receive(rems: seq<Remainder>, branchId: string, product: Product, req: PickRequest,
                   rowId: string): (r: seq<Remainder>)
    ensures rems == [] ==> r == [NewStockRow(rowId, product, branchId, req)]
    ensures rems != [] ==> |r| == |rems|
    ensures forall i :: 0 <= i < |rems| ==> r[i].id == rems[i].id && r[i].name == rems[i].name
  {
    if rems == [] then [NewStockRow(rowId, product, branchId, req)]
    else UpdateRemainder(rems, StockUpdate(rems, branchId, product, req))
  }

  /** CreatePickingList over the in-memory store. `pickingId` and `rowId`
      are the uuids the Go code draws for the new picking-list and ledger rows. */
  method CreatePickingList(db: Store, req: PickRequest, pickingId: string, rowId: string)
    returns (status: int)
    requires db.Valid()
    requires rowId != ""
    modifies db
    ensures db.Valid()
    ensures db.sales == old(db.sales) && db.products == old(db.products)
    ensures db.saleProducts == old(db.saleProducts) && db.comings == old(db.comings)
    ensures var (comingId, _) := ComingRef(old(db.comings), req.comingIncrementId, req.comingId);
            db.pickingLists == old(db.pickingLists)
              + [PickingList(pickingId, req.productId, req.quantity, comingId, req.comingIncrementId)]
    ensures ProductWithId(db.products, req.productId).None? ==>
              status == StatusBadRequest && db.remainders == old(db.remainders)
    ensures ProductWithId(db.products, req.productId).Some? ==>
              var (_, branchId) := ComingRef(old(db.comings), req.comingIncrementId, req.comingId);
              && db.remainders == Receive(old(db.remainders), branchId, ProductWithId(db.products, req.productId).value, req, rowId)
              && status == (if old(db.remainders) == [] then StatusAccepted else StatusCreated)
  {
    var comingId, branchId := FindComing(db.comings, req.comingIncrementId, req.comingId);
    assert (comingId, branchId) == ComingRef(db.comings, req.comingIncrementId, req.comingId);
    db.pickingLists := db.pickingLists + [PickingList(pickingId, req.productId, req.quantity, comingId, req.comingIncrementId)];
    var product := ProductWithId(db.products, req.productId);
    if product.None? {
      return StatusBadRequest;
    }
    if |db.remainders| == 0 {
      db.remainders := [NewStockRow(rowId, product.value, branchId, req)];
      return StatusAccepted;
    }
    var update := BuildStockUpdate(db.remainders, branchId, product.value, req);
    UpdateKeepsIds(db.remainders, update);
    db.remainders := UpdateRemainder(db.remainders, update);
    status := StatusCreated;
  }

  /** An update by id never changes ids, so they stay unique. */
  lemma UpdateKeepsIds(rems: seq<Remainder>, update: Remainder)
    requires UniqueRemainderIds(rems)
    ensures UniqueRemainderIds(UpdateRemainder(rems, update))
  {
    var u := UpdateRemainder(rems, update);
    assert forall i :: 0 <= i < |rems| ==> u[i].id == rems[i].id;
  }

  // ---------------------------------------------------------------------
  // Properties of a receipt

  /** On an empty ledger a receipt creates exactly one row: the picked
      quantity and price, the product's name and current price, the coming's branch. */
  lemma EmptyLedgerCreatesRow(branchId: string, product: Product, req: PickRequest, rowId: string)
    ensures var r := Receive([], branchId, product, req, rowId);
            && |r| == 1 && r[0].id == rowId && r[0].productId == product.id
            && r[0].quantity == req.quantity && r[0].comingPrice == req.price
            && r[0].salePrice == product.price && r[0].name == product.name && r[0].branchId == branchId
  {
  }

  /** On a non-empty ledger the first row for (branch, product) gains the
      picked quantity and takes the product's current sale price; it keeps its
      coming price and name, and every other row is unchanged. */
  lemma MatchedRowRestocked(rems: seq<Remainder>, branchId: string, product: Product, req: PickRequest,
                            rowId: string)
    requires UniqueRemainderIds(rems)
    requires FirstRow(rems, req.productId, branchId).Some?
    ensures var k := FirstRow(rems, req.productId, branchId).value;
            var r := Receive(rems, branchId, product, req, rowId);
            && |r| == |rems|
            && r[k] == rems[k].(quantity := rems[k].quantity + req.quantity, salePrice := product.price)
            && forall j :: 0 <= j < |rems| && j != k ==> r[j] == rems[j]
  {
  }

  /** On a non-empty ledger with no row for (branch, product) the update goes
      to the empty id: no row changes and none is created, so the received
      stock is not recorded. */
  lemma UnmatchedReceiptIsLost(rems: seq<Remainder>, branchId: string, product: Product, req: PickRequest,
                               rowId: string)
    requires UniqueRemainderIds(rems)
    requires rems != []
    requires FirstRow(rems, req.productId, branchId).None?
    ensures Receive(rems, branchId, product, req, rowId) == rems
  {
    var r := Receive(rems, branchId, product, req, rowId);
    assert forall j :: 0 <= j < |rems| ==> r[j] == rems[j];
  }

  /** Two receipts of the same product at the same branch, starting from an
      empty ledger, end in one row holding the sum of the quantities. */
  lemma ReceiptsAccumulate(branchId: string, product: Product, first: PickRequest, second: PickRequest,
                           id1: string, id2: string)
    requires first.productId == product.id && second.productId == product.id
    ensures var r := Receive(Receive([], branchId, product, first, id1), branchId, product, second, id2);
            |r| == 1 && r[0].quantity == first.quantity + second.quantity && r[0].id == id1
  {
    var r1 := Receive([], branchId, product, first, id1);
    assert Stocks(r1[0], second.productId, branchId);
    assert FirstRow(r1, second.productId, branchId) == Some(0);
  }

  /** A ledger that already holds a row for another product does not take
      in a first receipt of a new product: with 10 units of p1 on record,
      receiving 4 units of p2 leaves the ledger as it was. */
  lemma NewProductOnNonEmptyLedger()
    ensures var rems := [Remainder("r1", "p1", "flour", 10, 3.0, 4.0, "b1")];
            Receive(rems, "b1", Product("p2", "salt", 1.5), PickRequest("p2", 4, 1.0, "", "C-0000001"), "r2") == rems
  {
    var rems := [Remainder("r1", "p1", "flour", 10, 3.0, 4.0, "b1")];
    UnmatchedReceiptIsLost(rems, "b1", Product("p2", "salt", 1.5), PickRequest("p2", 4, 1.0, "", "C-0000001"), "r2");
  }
}

=== FILE: sale_product.dfy ===
/** Recording a sale line item (saleProductRepo.Create in
    storage/postgres/sale_product.go): look up the sale's branch and the stock
    of the product there, refuse when the stock is short, snapshot the
    product's price, then write the line item, the sale's running total and
    the stock deduction, in that order and without a transaction. */
module SaleProductRepo {
  import opened Wrappers
  import opened Models
  import opened Storage

  /** The request body (models.CreateSaleProduct); its price fields are not read. */
  datatype CreateSaleProduct = CreateSaleProduct(
    productId: string,
    saleId: string,
    saleIncrementId: string,
    quantity: int)

  /** The three writes, in the order Create issues them. */
  datatype Write = InsertWrite | SaleTotalWrite | StockWrite

  datatype CreateError =
    | NoLedgerRow            // the stock SELECT found no row
    | NotEnoughQuantity      // "not enough quantity"
    | NoProductPrice         // the price SELECT found no row
    | StoreError(at: Write)  // the store refused that write

  /** The three tables Create writes. */
  datatype Tables = Tables(sales: seq<Sale>, saleProducts: seq<SaleProduct>, remainders: seq<Remainder>)

  /** `SELECT branch_id FROM sale WHERE id = $1` scanned into a NullString:
      the branch of the first sale with that id, or null when there is none. */
  function SaleBranch(sales: seq<Sale>, saleId: string): (b: Option<string>)
    ensures b.None? <==> forall s :: s in sales ==> s.id != saleId
    ensures b.Some? ==> exists s :: s in sales && s.id == saleId && s.branchId == b.value
  {
    if sales == [] then None
    else if sales[0].id == saleId then Some(sales[0].branchId)
    else SaleBranch(sales[1..], saleId)
  }

  /** The text of a NullString: "" when it is null. */
  function OrEmpty(b: Option<string>): string {
    if b.Some? then b.value else ""
  }

  /** `UPDATE sale SET total_price = total_price + $1 WHERE id = $2`. */
  function AddToSaleTotal(sales: seq<Sale>, saleId: string, amount: real): seq<Sale> {
    seq(|sales|, i requires 0 <= i < |sales| =>
      if sales[i].id == saleId then sales[i].(totalPrice := sales[i].totalPrice + amount) else sales[i])
  }

  /** `UPDATE remainder SET quantity = quantity - $1 WHERE product_id = $2 AND
      branch_id = $3`: every row for the pair, not only the one that was
      checked. The branch is bound as the NullString itself, so a null branch
      compares equal to no row. */
  function DeductStock(rems: seq<Remainder>, productId: string, branch: Option<string>, quantity: int): seq<Remainder> {
    seq(|rems|, i requires 0 <= i < |rems| =>
      if branch.Some? && Stocks(rems[i], productId, branch.value)
      then rems[i].(quantity := rems[i].quantity - quantity) else rems[i])
  }

  /** The guard around the deduction (sale_product.go:93). */
  predicate DeductionRuns(remaining: int, quantity: int) {
    remaining > 0 || remaining > quantity
  }

  /** The line item Create stores for a request at a given unit price. */
  function LineItem(req: CreateSaleProduct, itemId: string, price: real): SaleProduct {
    SaleProduct(itemId, req.productId, req.saleId, req.saleIncrementId, req.quantity, price, req.quantity as real * price)
  }

  /** What Create does to the three tables and what it returns. `failing`
      names the write the store refuses, if any; the writes before it stay. */
  function CreateOutcome(t: Tables, products: seq<Product>, req: CreateSaleProduct, itemId: string,
                         failing: Option<Write>): (Tables, Result<SaleProduct, CreateError>)
  {
    var branch := SaleBranch(t.sales, req.saleId);
    match FirstRow(t.remainders, req.productId, OrEmpty(branch))
    case None => (t, Err(NoLedgerRow))
    case Some(k) =>
      var remaining := t.remainders[k].quantity;
      if remaining < req.quantity then (t, Err(NotEnoughQuantity))
      else match ProductWithId(products, req.productId)
        case None => (t, Err(NoProductPrice))
        case Some(product) =>
          var item := LineItem(req, itemId, product.price);
          if failing == Some(InsertWrite) then (t, Err(StoreError(InsertWrite)))
          else
            var t1 := t.(saleProducts := t.saleProducts + [item]);
            if failing == Some(SaleTotalWrite) then (t1, Err(StoreError(SaleTotalWrite)))
            else
              var t2 := t1.(sales := AddToSaleTotal(t.sales, req.saleId, item.totalPrice));
              if !DeductionRuns(remaining, req.quantity) then (t2, Ok(item))
              else if failing == Some(StockWrite) then (t2, Err(StoreError(StockWrite)))
              else (t2.(remainders := DeductStock(t.remainders, req.productId, branch, req.quantity)), Ok(item))
  }

  /** saleProductRepo.Create over the in-memory store. `itemId` is the uuid
      the Go code draws; `failing` is the write the store refuses, if any. */
  method Create(db: Store, req: CreateSaleProduct, itemId: string, failing: Option<Write>)
    returns (r: Result<SaleProduct, CreateError>)
    requires db.Valid()
    modifies db
    ensures db.Valid()
    ensures db.products == old(db.products) && db.comings == old(db.comings)
    ensures db.pickingLists == old(db.pickingLists)
    ensures (Tables(db.sales, db.saleProducts, db.remainders), r)
         == CreateOutcome(Tables(old(db.sales), old(db.saleProducts), old(db.remainders)),
                          old(db.products), req, itemId, failing)
  {
    var branch := SaleBranch(db.sales, req.saleId);
    var row := FirstRow(db.remainders, req.productId, OrEmpty(branch));
    if row.None? {
      return Err(NoLedgerRow);
    }
    var remaining := db.remainders[row.value].quantity;
    if remaining < req.quantity {
      return Err(NotEnoughQuantity);
    }
    var product := ProductWithId(db.products, req.productId);
    if product.None? {
      return Err(NoProductPrice);
    }
    var price := product.value.price;
    var item := LineItem(req, itemId, price);
    if failing == Some(InsertWrite) {
      return Err(StoreError(InsertWrite));
    }
    db.saleProducts := db.saleProducts + [item];
    if failing == Some(SaleTotalWrite) {
      return Err(StoreError(SaleTotalWrite));
    }
    SaleTotalFrame(db.sales, req.saleId, item.totalPrice);
    db.sales := AddToSaleTotal(db.sales, req.saleId, item.totalPrice);
    if remaining > 0 || remaining > req.quantity {
      if failing == Some(StockWrite) {
        return Err(StoreError(StockWrite));
      }
      DeductStockFrame(db.remainders, req.productId, branch, req.quantity);
      db.remainders := DeductStock(db.remainders, req.productId, branch, req.quantity);
    }
    r := Ok(item);
  }

  // ---------------------------------------------------------------------
  // Properties of Create

  /** The total update keeps every row's id, branch and payment, and rows
      of other sales are unchanged. */
  lemma SaleTotalFrame(sales: seq<Sale>, saleId: string, amount: real)
    ensures var r := AddToSaleTotal(sales, saleId, amount);
            && |r| == |sales|
            && (forall i :: 0 <= i < |sales| ==>
                  r[i].id == sales[i].id && r[i].branchId == sales[i].branchId && r[i].paid == sales[i].paid)
            && (forall i :: 0 <= i < |sales| && sales[i].id != saleId ==> r[i] == sales[i])
  {
  }

  /** The deduction changes quantities only, and a null branch changes no row. */
  lemma DeductStockFrame(rems: seq<Remainder>, productId: string, branch: Option<string>, quantity: int)
    ensures var r := DeductStock(rems, productId, branch, quantity);
            && |r| == |rems|
            && (forall i :: 0 <= i < |rems| ==>
                  r[i].id == rems[i].id && r[i].productId == rems[i].productId && r[i].branchId == rems[i].branchId)
            && (branch.None? ==> r == rems)
  {
    if branch.None? {
      assert DeductStock(rems, productId, branch, quantity) == rems;
    }
  }

  /** What any call can do to the tables: an error never touches the
      ledger, a failed check or a failed insert touches nothing, success
      appends exactly the returned item, and no sale or ledger row is added. */
  lemma CreateOutcomeFrame(t: Tables, products: seq<Product>, req: CreateSaleProduct, itemId: string,
                           failing: Option<Write>)
    ensures var r := CreateOutcome(t, products, req, itemId, failing);
            && (r.1.Err? ==> r.0.remainders == t.remainders)
            && (r.1.Err? && !r.1.error.StoreError? ==> r.0 == t)
            && (r.1 == Err(StoreError(InsertWrite)) ==> r.0 == t)
            && (r.1.Ok? ==> r.0.saleProducts == t.saleProducts + [r.1.value])
            && |r.0.sales| == |t.sales| && |r.0.remainders| == |t.remainders|
  {
  }

  /** The stock row Create checks: the first ledger row for the product at
      the branch the sale lookup produced. */
  function CheckedRow(t: Tables, req: CreateSaleProduct): Option<nat> {
    FirstRow(t.remainders, req.productId, OrEmpty(SaleBranch(t.sales, req.saleId)))
  }

  /** A stock shortfall is refused before anything is written. */
  lemma InsufficientStockRejected(t: Tables, products: seq<Product>, req: CreateSaleProduct,
                                  itemId: string, failing: Option<Write>)
    requires CheckedRow(t, req).Some?
    requires t.remainders[CheckedRow(t, req).value].quantity < req.quantity
    ensures CreateOutcome(t, products, req, itemId, failing) == (t, Err(NotEnoughQuantity))
  {
  }

  /** Without a ledger row for the pair, Create fails before any write. */
  lemma MissingStockRowRejected(t: Tables, products: seq<Product>, req: CreateSaleProduct,
                                itemId: string, failing: Option<Write>)
    requires CheckedRow(t, req).None?
    ensures CreateOutcome(t, products, req, itemId, failing) == (t, Err(NoLedgerRow))
  {
  }

  /** An unknown sale id is not refused by itself: the stock check reads
      the branch as "". Without a ledger row for (product, "") the request
      fails before any write. Whatever the outcome, no sale row changes and,
      the null branch matching nothing, no ledger row changes; when the row
      has enough stock and the product has a price, the line item is stored
      against the missing sale. */
  lemma UnknownSale(t: Tables, products: seq<Product>, req: CreateSaleProduct,
                    itemId: string, failing: Option<Write>)
    requires forall s :: s in t.sales ==> s.id != req.saleId
    ensures CheckedRow(t, req) == FirstRow(t.remainders, req.productId, "")
    ensures FirstRow(t.remainders, req.productId, "").None? ==>
              CreateOutcome(t, products, req, itemId, failing) == (t, Err(NoLedgerRow))
    ensures CreateOutcome(t, products, req, itemId, failing).0.sales == t.sales
    ensures CreateOutcome(t, products, req, itemId, failing).0.remainders == t.remainders
    ensures CheckedRow(t, req).Some? && t.remainders[CheckedRow(t, req).value].quantity >= req.quantity
            && ProductWithId(products, req.productId).Some? ==>
              CreateOutcome(t, products, req, itemId, None)
                == (t.(saleProducts := t.saleProducts + [LineItem(req, itemId, ProductWithId(products, req.productId).value.price)]),
                    Ok(LineItem(req, itemId, ProductWithId(products, req.productId).value.price)))
  {
    assert DeductStock(t.remainders, req.productId, None, req.quantity) == t.remainders;
    var amount := req.quantity as real;
    forall a: real ensures AddToSaleTotal(t.sales, req.saleId, a) == t.sales {
      var u := AddToSaleTotal(t.sales, req.saleId, a);
      assert |u| == |t.sales|;
      forall i | 0 <= i < |u| ensures u[i] == t.sales[i] {
        assert t.sales[i] in t.sales;
      }
    }
  }

  /** Asking for exactly the stock that is left succeeds and leaves the row at 0. */
  lemma ExactQuantityLeavesZero(t: Tables, products: seq<Product>, req: CreateSaleProduct, itemId: string)
    requires SaleBranch(t.sales, req.saleId).Some?
    requires CheckedRow(t, req).Some?
    requires t.remainders[CheckedRow(t, req).value].quantity == req.quantity >= 0
    requires ProductWithId(products, req.productId).Some?
    ensures var out := CreateOutcome(t, products, req, itemId, None);
            out.1.Ok? && out.0.remainders[CheckedRow(t, req).value].quantity == 0
  {
  }

  /** The stored line item carries the product's current price as its unit
      price and quantity × price as its total, and it is appended to the
      line-item table. */
  lemma LineItemSnapshot(t: Tables, products: seq<Product>, req: CreateSaleProduct,
                         itemId: string, failing: Option<Write>)
    requires CreateOutcome(t, products, req, itemId, failing).1.Ok?
    ensures ProductWithId(products, req.productId).Some?
    ensures var item := CreateOutcome(t, products, req, itemId, failing).1.value;
            && item.id == itemId && item.productId == req.productId
            && item.saleId == req.saleId && item.saleIncrementId == req.saleIncrementId
            && item.quantity == req.quantity
            && item.price == ProductWithId(products, req.productId).value.price
            && item.totalPrice == item.quantity as real * item.price
            && CreateOutcome(t, products, req, itemId, failing).0.saleProducts == t.saleProducts + [item]
  {
  }

  /** On success every sale row with the requested id has its total raised by
      exactly the line total; every other sale row is unchanged. */
  lemma SaleTotalRaised(t: Tables, products: seq<Product>, req: CreateSaleProduct,
                        itemId: string, failing: Option<Write>)
    requires CreateOutcome(t, products, req, itemId, failing).1.Ok?
    ensures var out := CreateOutcome(t, products, req, itemId, failing);
            && |out.0.sales| == |t.sales|
            && forall i :: 0 <= i < |t.sales| ==>
                 out.0.sales[i] == if t.sales[i].id == req.saleId
                                   then t.sales[i].(totalPrice := t.sales[i].totalPrice + out.1.value.totalPrice)
                                   else t.sales[i]
  {
    var item := CreateOutcome(t, products, req, itemId, failing).1.value;
    assert CreateOutcome(t, products, req, itemId, failing).0.sales == AddToSaleTotal(t.sales, req.saleId, item.totalPrice);
  }

  /** On success only the ledger rows for (product, sale's branch) change,
      each losing `quantity` when the deduction guard holds and the sale exists. */
  lemma StockDeducted(t: Tables, products: seq<Product>, req: CreateSaleProduct,
                      itemId: string, failing: Option<Write>)
    requires CreateOutcome(t, products, req, itemId, failing).1.Ok?
    ensures CheckedRow(t, req).Some?
    ensures var out := CreateOutcome(t, products, req, itemId, failing);
            var branch := SaleBranch(t.sales, req.saleId);
            var runs := DeductionRuns(t.remainders[CheckedRow(t, req).value].quantity, req.quantity);
            && |out.0.remainders| == |t.remainders|
            && forall i :: 0 <= i < |t.remainders| ==>
                 out.0.remainders[i] == if runs && branch.Some? && Stocks(t.remainders[i], req.productId, branch.value)
                                        then t.remainders[i].(quantity := t.remainders[i].quantity - req.quantity)
                                        else t.remainders[i]
  {
  }

  /** The quantity is not checked to be positive: a negative quantity passes
      the stock check and the deduction then raises every row for the pair. */
  lemma NegativeQuantityRaisesStock(t: Tables, products: seq<Product>, req: CreateSaleProduct, itemId: string)
    requires req.quantity < 0
    requires SaleBranch(t.sales, req.saleId).Some?
    requires CheckedRow(t, req).Some? && t.remainders[CheckedRow(t, req).value].quantity >= 0
    requires ProductWithId(products, req.productId).Some?
    ensures var out := CreateOutcome(t, products, req, itemId, None);
            var branchId := SaleBranch(t.sales, req.saleId).value;
            && out.1.Ok?
            && forall i :: 0 <= i < |t.remainders| && Stocks(t.remainders[i], req.productId, branchId) ==>
                 out.0.remainders[i].quantity > t.remainders[i].quantity
  {
  }

  /** There is no rollback: when the sale-total write fails the line item
      stays stored, and when the stock write fails the line item and the
      raised total both stay, with the ledger untouched. */
  lemma NoRollback(t: Tables, products: seq<Product>, req: CreateSaleProduct, itemId: string)
    requires CheckedRow(t, req).Some?
    requires t.remainders[CheckedRow(t, req).value].quantity >= req.quantity
    requires ProductWithId(products, req.productId).Some?
    ensures var item := LineItem(req, itemId, ProductWithId(products, req.productId).value.price);
            CreateOutcome(t, products, req, itemId, Some(SaleTotalWrite))
              == (t.(saleProducts := t.saleProducts + [item]), Err(StoreError(SaleTotalWrite)))
    ensures var item := LineItem(req, itemId, ProductWithId(products, req.productId).value.price);
            var out := CreateOutcome(t, products, req, itemId, Some(StockWrite));
            DeductionRuns(t.remainders[CheckedRow(t, req).value].quantity, req.quantity) ==>
              out == (Tables(AddToSaleTotal(t.sales, req.saleId, item.totalPrice), t.saleProducts + [item], t.remainders),
                      Err(StoreError(StockWrite)))
  {
  }

  /** A failed sale-total write leaves exactly the stored line item behind. */
  lemma TotalWriteFails(t: Tables, products: seq<Product>, req: CreateSaleProduct, itemId: string)
    requires CheckedRow(t, req).Some?
    requires t.remainders[CheckedRow(t, req).value].quantity >= req.quantity
    requires ProductWithId(products, req.productId).Some?
    ensures CreateOutcome(t, products, req, itemId, Some(SaleTotalWrite))
         == (t.(saleProducts := t.saleProducts + [LineItem(req, itemId, ProductWithId(products, req.productId).value.price)]),
             Err(StoreError(SaleTotalWrite)))
  {
  }

  /** The sum of the line totals recorded against a sale id. */
  function LineTotal(items: seq<SaleProduct>, saleId: string): real {
    if items == [] then 0.0
    else
      var last := items[|items| - 1];
      LineTotal(items[..|items| - 1], saleId) + (if last.saleId == saleId then last.totalPrice else 0.0)
  }

  /** Every sale's running total equals the sum of its line items' totals. */
  ghost predicate TotalsConsistent(t: Tables) {
    forall i :: 0 <= i < |t.sales| ==> t.sales[i].totalPrice == LineTotal(t.saleProducts, t.sales[i].id)
  }

  lemma LineTotalAppend(items: seq<SaleProduct>, x: SaleProduct, saleId: string)
    ensures LineTotal(items + [x], saleId) == LineTotal(items, saleId) + (if x.saleId == saleId then x.totalPrice else 0.0)
  {
    assert (items + [x])[..|items|] == items;
  }

  /** A successful Create keeps every sale's total equal to the sum of its
      line items. */
  lemma TotalsStayConsistent(t: Tables, products: seq<Product>, req: CreateSaleProduct,
                             itemId: string, failing: Option<Write>)
    requires TotalsConsistent(t)
    requires CreateOutcome(t, products, req, itemId, failing).1.Ok?
    ensures TotalsConsistent(CreateOutcome(t, products, req, itemId, failing).0)
  {
    var out := CreateOutcome(t, products, req, itemId, failing);
    var item := out.1.value;
    LineItemSnapshot(t, products, req, itemId, failing);
    SaleTotalRaised(t, products, req, itemId, failing);
    forall i | 0 <= i < |out.0.sales|
      ensures out.0.sales[i].totalPrice == LineTotal(out.0.saleProducts, out.0.sales[i].id)
    {
      LineTotalAppend(t.saleProducts, item, t.sales[i].id);
    }
  }

  /** Without a transaction the invariant can break: a failed sale-total
      write after a stored line item of non-zero total leaves that sale's
      total short of its line items. */
  lemma FailedTotalBreaksConsistency(t: Tables, products: seq<Product>, req: CreateSaleProduct,
                                     itemId: string, j: nat)
    requires TotalsConsistent(t)
    requires j < |t.sales| && t.sales[j].id == req.saleId
    requires CheckedRow(t, req).Some?
    requires t.remainders[CheckedRow(t, req).value].quantity >= req.quantity
    requires ProductWithId(products, req.productId).Some?
    requires req.quantity as real * ProductWithId(products, req.productId).value.price != 0.0
    ensures !TotalsConsistent(CreateOutcome(t, products, req, itemId, Some(SaleTotalWrite)).0)
  {
    var item := LineItem(req, itemId, ProductWithId(products, req.productId).value.price);
    TotalWriteFails(t, products, req, itemId);
    UntotalledItemBreaksConsistency(t, item, j);
  }

  /** Storing a line item of non-zero total without raising its sale's
      total breaks the invariant. */
  lemma UntotalledItemBreaksConsistency(t: Tables, item: SaleProduct, j: nat)
    requires TotalsConsistent(t)
    requires j < |t.sales| && t.sales[j].id == item.saleId
    requires item.totalPrice != 0.0
    ensures !TotalsConsistent(t.(saleProducts := t.saleProducts + [item]))
  {
    var t1 := t.(saleProducts := t.saleProducts + [item]);
    LineTotalAppend(t.saleProducts, item, item.saleId);
    assert t1.sales[j].totalPrice != LineTotal(t1.saleProducts, t1.sales[j].id);
  }

  /** When every ledger row is non-negative and the pair has a single row,
      a successful Create keeps every row non-negative. */
  lemma SingleRowStaysNonNegative(t: Tables, products: seq<Product>, req: CreateSaleProduct,
                                  itemId: string, failing: Option<Write>)
    requires forall i :: 0 <= i < |t.remainders| ==> t.remainders[i].quantity >= 0
    requires CheckedRow(t, req).Some?
    requires forall i :: 0 <= i < |t.remainders| && Stocks(t.remainders[i], req.productId, OrEmpty(SaleBranch(t.sales, req.saleId)))
               ==> i == CheckedRow(t, req).value
    requires CreateOutcome(t, products, req, itemId, failing).1.Ok?
    ensures var rems := CreateOutcome(t, products, req, itemId, failing).0.remainders;
            forall i :: 0 <= i < |rems| ==> rems[i].quantity >= 0
  {
    StockDeducted(t, products, req, itemId, failing);
  }

  /** The one-row-per-pair rule is not enforced: with two rows for the pair
      only the first is checked and both are deducted, so the second goes
      negative. */
  lemma DuplicateRowsGoNegative()
    ensures var t := Tables([Sale("s1", "c1", "b1", "S-0000001", 0.0, 0.0, 0.0)], [],
                            [Remainder("r1", "p1", "", 5, 1.0, 2.0, "b1"),
                             Remainder("r2", "p1", "", 1, 1.0, 2.0, "b1")]);
            var out := CreateOutcome(t, [Product("p1", "milk", 2.0)],
                                     CreateSaleProduct("p1", "s1", "S-0000001", 3), "i1", None);
            out.1.Ok? && out.0.remainders[0].quantity == 2 && out.0.remainders[1].quantity == -2
  {
  }

  /** The branch lookup reads only ids and branches. */
  lemma {:induction false} SaleBranchSameKeys(a: seq<Sale>, b: seq<Sale>, saleId: string)
    requires |a| == |b|
    requires forall i :: 0 <= i < |a| ==> a[i].id == b[i].id && a[i].branchId == b[i].branchId
    ensures SaleBranch(a, saleId) == SaleBranch(b, saleId)
  {
    if a != [] {
      SaleBranchSameKeys(a[1..], b[1..], saleId);
    }
  }

  /** Changing only totals leaves the branch lookup as it was. */
  lemma SaleBranchIgnoresTotals(sales: seq<Sale>, saleId: string, amount: real)
    ensures SaleBranch(AddToSaleTotal(sales, saleId, amount), saleId) == SaleBranch(sales, saleId)
  {
    SaleTotalFrame(sales, saleId, amount);
    SaleBranchSameKeys(AddToSaleTotal(sales, saleId, amount), sales, saleId);
  }

  /** Changing only quantities leaves the first-row lookup as it was. */
  lemma {:induction false} FirstRowIgnoresQuantities(rems: seq<Remainder>, productId: string, branchId: string,
                                                     p: string, b: Option<string>, q: int)
    ensures FirstRow(DeductStock(rems, p, b, q), productId, branchId) == FirstRow(rems, productId, branchId)
  {
    if rems != [] {
      FirstRowIgnoresQuantities(rems[1..], productId, branchId, p, b, q);
      assert DeductStock(rems, p, b, q)[1..] == DeductStock(rems[1..], p, b, q);
    }
  }

  /** Against an unknown sale the stock is checked but never deducted, so
      one unit stocked under the empty branch can be sold twice. */
  lemma UnknownSaleOversells()
    ensures var t := Tables([], [], [Remainder("r1", "p1", "", 1, 1.0, 2.0, "")]);
            var products := [Product("p1", "milk", 2.0)];
            var req := CreateSaleProduct("p1", "s9", "S-0000009", 1);
            var first := CreateOutcome(t, products, req, "i1", None);
            var second := CreateOutcome(first.0, products, req, "i2", None);
            && first.1.Ok? && second.1.Ok?
            && |second.0.saleProducts| == 2 && second.0.remainders == t.remainders
  {
    var t := Tables([], [], [Remainder("r1", "p1", "", 1, 1.0, 2.0, "")]);
    var products := [Product("p1", "milk", 2.0)];
    var req := CreateSaleProduct("p1", "s9", "S-0000009", 1);
    UnknownSale(t, products, req, "i1", None);
    var first := CreateOutcome(t, products, req, "i1", None);
    UnknownSale(first.0, products, req, "i2", None);
  }

  /** Two sales against an existing sale, run one after the other, cannot
      oversell a single row: when the first takes stock so that too little is
      left, the second is refused. */
  lemma SequentialSalesCannotOversell(t: Tables, products: seq<Product>, req1: CreateSaleProduct,
                                      req2: CreateSaleProduct, id1: string, id2: string)
    requires req2.productId == req1.productId && req2.saleId == req1.saleId
    requires SaleBranch(t.sales, req1.saleId).Some?
    requires CheckedRow(t, req1).Some?
    requires var left := t.remainders[CheckedRow(t, req1).value].quantity;
             0 < req1.quantity <= left < req1.quantity + req2.quantity
    requires ProductWithId(products, req1.productId).Some?
    ensures CreateOutcome(t, products, req1, id1, None).1.Ok?
    ensures var t1 := CreateOutcome(t, products, req1, id1, None).0;
            CreateOutcome(t1, products, req2, id2, None) == (t1, Err(NotEnoughQuantity))
  {
    var k := CheckedRow(t, req1).value;
    var branch := SaleBranch(t.sales, req1.saleId);
    var item := LineItem(req1, id1, ProductWithId(products, req1.productId).value.price);
    var after := DeductStock(t.remainders, req1.productId, branch, req1.quantity);
    var t1 := Tables(AddToSaleTotal(t.sales, req1.saleId, item.totalPrice), t.saleProducts + [item], after);
    assert CreateOutcome(t, products, req1, id1, None) == (t1, Ok(item));
    SaleBranchIgnoresTotals(t.sales, req1.saleId, item.totalPrice);
    FirstRowIgnoresQuantities(t.remainders, req1.productId, OrEmpty(branch), req1.productId, branch, req1.quantity);
    assert CheckedRow(t1, req2) == Some(k);
    assert after[k].quantity == t.remainders[k].quantity - req1.quantity;
  }
}

=== FILE: store.dfy ===
/** The database tables the core operations write, held in memory. Each
    table is a sequence of rows in the order the store lists them; the
    statements `UPDATE … WHERE id = $1` and `UPDATE … WHERE <columns>` are
    functions over those sequences. */
module Storage {
  import opened Wrappers
  import opened Models

  class Store {
    var sales: seq<Sale>
    var products: seq<Product>
    var remainders: seq<Remainder>
    var saleProducts: seq<SaleProduct>
    var comings: seq<Coming>
    var pickingLists: seq<PickingList>

    /** Sale and ledger rows get their ids from uuid.New(): never empty and
        never repeated. */
    ghost predicate Valid()
      reads this
    {
      && UniqueSaleIds(sales)
      && UniqueRemainderIds(remainders)
    }

    constructor (sales: seq<Sale>, products: seq<Product>, remainders: seq<Remainder>,
                 saleProducts: seq<SaleProduct>, comings: seq<Coming>, pickingLists: seq<PickingList>)
      requires UniqueSaleIds(sales) && UniqueRemainderIds(remainders)
      ensures Valid()
      ensures this.sales == sales && this.products == products && this.remainders == remainders
      ensures this.saleProducts == saleProducts && this.comings == comings && this.pickingLists == pickingLists
    {
      this.sales := sales;
      this.products := products;
      this.remainders := remainders;
      this.saleProducts := saleProducts;
      this.comings := comings;
      this.pickingLists := pickingLists;
    }
  }

  ghost predicate UniqueSaleIds(sales: seq<Sale>) {
    && (forall i :: 0 <= i < |sales| ==> sales[i].id != "")
    && (forall i, j :: 0 <= i < j < |sales| ==> sales[i].id != sales[j].id)
  }

  ghost predicate UniqueRemainderIds(rems: seq<Remainder>) {
    && (forall i :: 0 <= i < |rems| ==> rems[i].id != "")
    && (forall i, j :: 0 <= i < j < |rems| ==> rems[i].id != rems[j].id)
  }

  /** `SELECT … FROM product WHERE id = $1`: the first row with that id. */
  function ProductWithId(products: seq<Product>, id: string): (r: Option<Product>)
    ensures r.Some? ==> r.value in products && r.value.id == id
    ensures r.None? ==> forall p :: p in products ==> p.id != id
  {
    if products == [] then None
    else if products[0].id == id then Some(products[0])
    else ProductWithId(products[1..], id)
  }

  /** Whether a ledger row holds stock of the given product at the given branch. */
  predicate Stocks(row: Remainder, productId: string, branchId: string) {
    row.productId == productId && row.branchId == branchId
  }

  /** The position of the first ledger row for (product, branch): the row a
      single-row SELECT returns and the row a first-match scan stops at. */
  function FirstRow(rems: seq<Remainder>, productId: string, branchId: string): (r: Option<nat>)
    ensures r.Some? ==> r.value < |rems| && Stocks(rems[r.value], productId, branchId)
    ensures r.Some? ==> forall j :: 0 <= j < r.value ==> !Stocks(rems[j], productId, branchId)
    ensures r.None? ==> forall j :: 0 <= j < |rems| ==> !Stocks(rems[j], productId, branchId)
  {
    if rems == [] then None
    else if Stocks(rems[0], productId, branchId) then Some(0)
    else match FirstRow(rems[1..], productId, branchId)
      case None => None
      case Some(k) => Some(k + 1)
  }
}

=== FILE: strconv.dfy ===
/** Decimal rendering and parsing of integers, as Go's strconv.Itoa and
    strconv.Atoi do them on a 64-bit platform. Both the sequence-number
    generator and the query-string parser of the handlers rely on them. */
module Strconv {
  import opened Wrappers

  /** Bounds of Go's `int` (64 bits); Atoi reports a range error outside them. */
  const Int64Min: int := -0x8000_0000_0000_0000
  const Int64Max: int := 0x7fff_ffff_ffff_ffff

  predicate IsDigit(c: char) {
    '0' <= c <= '9'
  }

  predicate AllDigits(s: string) {
    forall i :: 0 <= i < |s| ==> IsDigit(s[i])
  }

  function DigitValue(c: char): (d: nat)
    requires IsDigit(c)
    ensures d < 10
  {
    (c as int) - ('0' as int)
  }

  function DigitChar(d: nat): (c: char)
    requires d < 10
    ensures IsDigit(c) && DigitValue(c) == d
  {
    (('0' as int) + d) as char
  }

  /** The number a string of decimal digits denotes, most significant digit first. */
  function DigitsValue(s: string): nat
    requires AllDigits(s)
  {
    if s == [] then 0 else DigitsValue(s[..|s| - 1]) * 10 + DigitValue(s[|s| - 1])
  }

  /** The shortest decimal rendering of a natural number (no leading zero). */
  function NatToDigits(n: nat): (s: string)
    ensures |s| >= 1 && AllDigits(s)
    ensures |s| > 1 ==> s[0] != '0'
  {
    if n < 10 then [DigitChar(n)] else NatToDigits(n / 10) + [DigitChar(n % 10)]
  }

  /** strconv.Itoa: a minus sign for negative numbers, then the digits. */
  function Itoa(n: int): string {
    if n < 0 then "-" + NatToDigits(-n) else NatToDigits(n)
  }

  function Pow10(k: nat): (p: nat)
    ensures p >= 1
  {
    if k == 0 then 1 else 10 * Pow10(k - 1)
  }

  /** A string of k zero characters. */
  function Zeros(k: nat): (s: string)
    ensures |s| == k && AllDigits(s)
  {
    if k == 0 then [] else Zeros(k - 1) + ['0']
  }

  /** strconv.Atoi (base 10): an optional '+' or '-', at least one decimal
      digit and nothing else; the value must fit in 64 bits. None stands for
      the syntax and range errors Atoi returns. */
  function Atoi(s: string): (r: Option<int>)
    ensures r.Some? ==> |s| >= 1 && (IsDigit(s[0]) || s[0] == '+' || s[0] == '-')
    ensures r.Some? ==> forall i :: 1 <= i < |s| ==> IsDigit(s[i])
    ensures r.Some? ==> IsDigit(s[|s| - 1])
    ensures r.Some? ==> Int64Min <= r.value <= Int64Max
    ensures r.Some? && s[0] == '-' ==> r.value <= 0
    ensures r.Some? && s[0] != '-' ==> r.value >= 0
  {
    if |s| == 0 then None
    else
      var body := if s[0] == '-' || s[0] == '+' then s[1..] else s;
      if |body| == 0 || !AllDigits(body) then None
      else
        var v: int := if s[0] == '-' then -(DigitsValue(body) as int) else DigitsValue(body);
        if Int64Min <= v <= Int64Max then Some(v) else None
  }

  lemma DigitsValueAppend(s: string, c: char)
    requires AllDigits(s) && IsDigit(c)
    ensures AllDigits(s + [c])
    ensures DigitsValue(s + [c]) == DigitsValue(s) * 10 + DigitValue(c)
  {
    assert (s + [c])[..|s|] == s;
  }

  /** Rendering a natural number and reading it back gives the number. */
  lemma {:induction false} NatToDigitsValue(n: nat)
    ensures DigitsValue(NatToDigits(n)) == n
  {
    if n >= 10 {
      NatToDigitsValue(n / 10);
      DigitsValueAppend(NatToDigits(n / 10), DigitChar(n % 10));
    }
  }

  /** Leading zeros do not change the value of a digit string. */
  lemma {:induction false} ZerosPrefixValue(k: nat, s: string)
    requires AllDigits(s)
    ensures AllDigits(Zeros(k) + s)
    ensures DigitsValue(Zeros(k) + s) == DigitsValue(s)
    decreases |s|, k
  {
    if s == [] {
      assert Zeros(k) + s == Zeros(k);
      if k > 0 {
        ZerosPrefixValue(k - 1, []);
        assert Zeros(k - 1) + [] == Zeros(k - 1);
        DigitsValueAppend(Zeros(k - 1), '0');
      }
    } else {
      var init := s[..|s| - 1];
      var last := s[|s| - 1];
      assert s == init + [last];
      assert Zeros(k) + s == (Zeros(k) + init) + [last];
      ZerosPrefixValue(k, init);
      DigitsValueAppend(Zeros(k) + init, last);
      DigitsValueAppend(init, last);
    }
  }

  /** The rendering of n has at most k digits exactly when n < 10^k. */
  lemma {:induction false} NatToDigitsLength(n: nat, k: nat)
    requires k >= 1
    ensures |NatToDigits(n)| <= k <==> n < Pow10(k)
  {
    if n >= 10 {
      if k == 1 {
        assert Pow10(1) == 10;
      } else {
        NatToDigitsLength(n / 10, k - 1);
        assert n / 10 < Pow10(k - 1) <==> n < 10 * Pow10(k - 1);
      }
    } else {
      PowAtLeast10(k);
    }
  }

  lemma PowAtLeast10(k: nat)
    requires k >= 1
    ensures Pow10(k) >= 10
  {
    if k > 1 {
      PowAtLeast10(k - 1);
    }
  }

  /** A string of digits alone, small enough for 64 bits, is accepted by Atoi
      with the value it denotes. */
  lemma AtoiOfDigits(s: string)
    requires |s| >= 1 && AllDigits(s) && DigitsValue(s) <= Int64Max
    ensures Atoi(s) == Some(DigitsValue(s))
  {
    assert IsDigit(s[0]);
  }

  /** Atoi reads back what Itoa renders, for every 64-bit integer. */
  lemma AtoiItoa(n: int)
    requires Int64Min <= n <= Int64Max
    ensures Atoi(Itoa(n)) == Some(n)
  {
    if n < 0 {
      NatToDigitsValue(-n);
      var s := Itoa(n);
      assert s[1..] == NatToDigits(-n);
    } else {
      NatToDigitsValue(n);
      AtoiOfDigits(NatToDigits(n));
    }
  }

  /** Atoi ignores zero padding in front of a rendered natural number. */
  lemma AtoiZeroPadded(k: nat, n: nat)
    requires n <= Int64Max
    ensures Atoi(Zeros(k) + NatToDigits(n)) == Some(n)
  {
    NatToDigitsValue(n);
    ZerosPrefixValue(k, NatToDigits(n));
    AtoiOfDigits(Zeros(k) + NatToDigits(n));
  }

  /** An explicit sign in front of a (possibly zero-padded) rendering is
      accepted: '+' keeps the value, '-' negates it, within the 64-bit range. */
  lemma AtoiSigned(k: nat, n: nat)
    ensures n <= Int64Max ==> Atoi("+" + Zeros(k) + NatToDigits(n)) == Some(n)
    ensures n <= -Int64Min ==> Atoi("-" + Zeros(k) + NatToDigits(n)) == Some(-(n as int))
  {
    var body := Zeros(k) + NatToDigits(n);
    NatToDigitsValue(n);
    ZerosPrefixValue(k, NatToDigits(n));
    assert ("+" + Zeros(k) + NatToDigits(n))[1..] == body;
    assert ("-" + Zeros(k) + NatToDigits(n))[1..] == body;
  }
}

=== FILE: wrappers.dfy ===
/** Optional values and error results, used where the Go code returns a
    value together with an error, or scans a column that may be NULL. */
module Wrappers {

  datatype Option<+T> = None | Some(value: T)

  datatype Result<+T, +E> = Ok(value: T) | Err(error: E)
}
